=== FILE: README.md ===
# Google Maps for Business providers for GMap.NET — a Dafny model

This project models the adapter that lets the GMap.NET map control use
Google Maps for Business: the credential string of a provider and the
request signing it configures, tile access through Google Static Maps with
branding removal, the cached HTTP response installed for the Google Maps
client library, the conversions between the client library's values and
the map control's values, the result shaping of geocoding and routing, and
the static registry of the four provider singletons with its bulk
credential setter.

Everything external is a parameter: the geocoding and directions services,
the polyline decoder, the static-map transfer, URL signing and the network
are oracles (functions from request to response), the cache storage engine
is a map from key to stored text and storage time, and the clock is a
number of ticks. Mutable state (a provider's fields, the process-wide
signing instance, the URL cache) becomes immutable records that the
setters and `AsString` return in updated form. A thrown exception is an
outcome value that carries the state at the throw.

Modules, one per concern of the source:

| module | file | models |
|---|---|---|
| `Common` | common.dfy | nullable references, `String.IsNullOrEmpty`, null in string concatenation |
| `CredentialCodec` | credential_codec.dfy | the credential regular expression `id=(.+);key=(.+)` and the getter's format |
| `BusinessProvider` | business_provider.dfy | provider state, `SetCreditals`, the `CreditalString` getter and setter |
| `TileAccess` | tile_access.dfy | `GetTileImage` dispatch, sized tile fetch, branding removal, `CropImage` |
| `GoogleMapWrapper` | google_map_wrapper.dfy | status, accuracy, coordinate and placemark conversions |
| `Geocoding` | geocoding.dfy | `GetPoint`, `GetPoints`, `GetPlacemark`, `GetPlacemarks` |
| `Routing` | routing.dfy | `GetRoute`, `AssembleHQPolyline`, `AppendLegSteps` |
| `CachedHttp` | cached_http.dfy | `GMapsCachedHttpGetResponse.AsString`, its cache wrappers, the factory |
| `ProvidersBusiness` | providers_business.dfy | `AllGoogleBusinessProviders`, `GoogleCreditalString` |

The credential regular expression is modelled exactly, newlines included:
`MatchAt`/`ChosenMatch` give the declarative meaning of the .NET match
(leftmost start, then the longest group 1, group 2 to the end of the line,
`.` excluding `'\n'`), and `ParseCredital` is the backtracking search,
proved to report exactly the chosen match.

Behaviours of the source worth noting:

- `AsString` returns null, not the empty string, when the cache has no
  entry (the lookup yields null) and the request yields a null response or
  a null stream (Business/GMapsCachedHttpGetResponseFactory.cs:35-66);
  `CachedHttp.MissThenNullResponseReturnsNull` shows it.
- Over-limit and request-denied statuses map to the same geocoder code,
  `G_GEO_TOO_MANY_QUERIES` (Business/GoogleMapWrapper.cs:41-45).
- The response cache is read and written under the unsigned request URI
  (Business/GMapsCachedHttpGetResponseFactory.cs:40 and 60), while the
  request goes to the signed one (line 49).
- An empty cached text is treated as a miss, exactly like a missing entry
  (Business/GMapsCachedHttpGetResponseFactory.cs:43-45).

## Model

| member | source | states |
|---|---|---|
| CredentialCodec.LineEnd | Business/GoogleMapBusinessProvider.cs:165 | where a greedy `.+` stops: every character before it is not a newline, and the character at it is one (or the input ended) |
| CredentialCodec.GreedySplit | Business/GoogleMapBusinessProvider.cs:165-166 | for a match starting at a given `id=`, the backtracking of the greedy group 1 finds the longest group 1 that lets `;key=(.+)` match, or reports that none does |
| CredentialCodec.MatchFrom | Business/GoogleMapBusinessProvider.cs:165-167 | the scan finds the leftmost start at which the pattern matches, with its longest group 1, or reports that there is none |
| CredentialCodec.ParseCredital | Business/GoogleMapBusinessProvider.cs:159-175 | succeeds exactly when the pattern matches somewhere; on failure both outputs are null; on success they are group 1 and group 2 of the leftmost, longest match |
| CredentialCodec.ChosenMatchUnique | Business/GoogleMapBusinessProvider.cs:165-166 | the match the engine reports is unique |
| CredentialCodec.ParseOfChosenMatch | Business/GoogleMapBusinessProvider.cs:165-171 | whenever a match is the leftmost, longest one, the parse returns exactly its two groups |
| CredentialCodec.ParsedPartsNonEmpty | Business/GoogleMapBusinessProvider.cs:165-171 | a successful parse yields a non-null, non-empty id and key |
| CredentialCodec.FormatParseRoundTrip | Business/GoogleMapBusinessProvider.cs:140-175 | the getter's string for a non-empty single-line id and key, where the key has no `;key=` followed by a character, parses back to exactly that id and key |
| CredentialCodec.ParseFormatParse | Business/GoogleMapBusinessProvider.cs:140-175 | formatting the groups of any successful parse and parsing again yields the same groups |
| CredentialCodec.FormatCredital | Business/GoogleMapBusinessProvider.cs:142 | the getter's string is `id=`, the id, `;key=` and the key side by side, a null part contributing nothing |
| CredentialCodec.ParseExample | Business/GoogleMapBusinessProvider.cs:159-175 | `id=abc;key=xyz` parses to `abc` and `xyz` |
| CredentialCodec.TooShortNeverMatches | Business/GoogleMapBusinessProvider.cs:159-175 | a value shorter than `id=`, `;key=` and one character per group is never accepted |
| CredentialCodec.MalformedExample | Business/GoogleMapBusinessProvider.cs:159-175 | `foo=bar` does not parse |
| CredentialCodec.UnsetCreditalsDoNotParse | Business/GoogleMapBusinessProvider.cs:140-175 | the getter's string with null id and key, `id=;key=`, does not parse |
| CredentialCodec.KeyHoldingSeparatorSplitsLate | Business/GoogleMapBusinessProvider.cs:140-175 | id `a` with key `b;key=c` parses back as id `a;key=b` and key `c`: the greedy group 1 moves the split |
| BusinessProvider.NewProvider | Business/GoogleMapBusinessProvider.cs:108-120 | a new provider has the given map type, a null client id and private key, and branding removal on (the field initialiser at line 210) |
| BusinessProvider.SetCreditals | Business/GoogleMapBusinessProvider.cs:127-134 | both values are always stored and nothing else about the provider changes; the signer is replaced by one with these values exactly when both are non-null and non-empty, otherwise kept |
| BusinessProvider.CreditalString | Business/GoogleMapBusinessProvider.cs:138-142 | the getter's string is `id=`, the stored id, `;key=` and the stored key side by side, a null part contributing nothing; it parses back to the stored id and key when both are non-empty single-line strings and the key holds no usable `;key=` |
| BusinessProvider.SetCreditalString | Business/GoogleMapBusinessProvider.cs:140-157 | null is ignored; a value the pattern does not match throws a format error carrying the value and changes nothing; a matching value stores the parsed id and key and always installs their signer |
| BusinessProvider.SetGetSetIdempotent | Business/GoogleMapBusinessProvider.cs:140-157 | after a successful assignment, assigning the getter's string again leaves provider and signer as they are |
| BusinessProvider.FreshProviderStringRejected | Business/GoogleMapBusinessProvider.cs:119-157 | the getter's string of a provider whose credentials were never set cannot be assigned back: the setter throws |
| TileAccess.TileRequest | Business/GoogleMapBusinessProvider.cs:277-289 | the static-map request carries the provider's map type, the requested size, tile and zoom, sensor off, and is signed by the signing instance when there is one |
| TileAccess.GetSizedTileImage | Business/GoogleMapBusinessProvider.cs:273-304 | the sized fetch yields an image exactly when the transfer of the request for this map type, size and signer yields one, and then that image; a null image or a web exception yields no image |
| TileAccess.CropImage | Business/GoogleMapBusinessProvider.cs:255-268 | the crop is a raster of the section's size whose pixel (i, j) is the source pixel at the section's offset, transparent outside the source |
| TileAccess.CropInsideRaster | Business/GoogleMapBusinessProvider.cs:255-268 | a section lying inside a raster crops to the matching slice of each covered row |
| TileAccess.CropFullWidthRows | Business/GoogleMapBusinessProvider.cs:255-268 | a full-width section crops to exactly the rows it covers |
| TileAccess.BrandedTileSize | Business/GoogleMapBusinessProvider.cs:224-230 | branding removal requests a 256 x 306 image, the tile plus 25 pixels above and below |
| TileAccess.CleanSection | Business/GoogleMapBusinessProvider.cs:239-243 | the kept section is (0, 25, 256, 256); it lies inside the branded image and leaves 25 rows below it as well as above |
| TileAccess.BrandingRemovalKeepsMiddleRows | Business/GoogleMapBusinessProvider.cs:221-268 | cropping a 256 x 306 branded image gives exactly its rows [25, 281), a 256 x 256 raster |
| TileAccess.GetTileImageWithoutBranding | Business/GoogleMapBusinessProvider.cs:221-253 | a tile exactly when the 256 x 306 fetch yields an image; every tile is 256 x 256, and equals rows [25, 281) of a 256 x 306 fetch |
| TileAccess.GetTileImage | Business/GoogleMapBusinessProvider.cs:209-219 | with branding removal on, a 256 x 256 tile exactly when the 256 x 306 fetch succeeds, equal to rows [25, 281) of that fetch when it is a 256 x 306 raster; with it off, exactly what the 256 x 256 fetch yields |
| TileAccess.FailedFetchYieldsNoTile | Business/GoogleMapBusinessProvider.cs:292-303 | a null image or a web exception during the fetch yields no tile |
| GoogleMapWrapper.ToPointLatLng | Business/GoogleMapWrapper.cs:20-23 | latitude and longitude are carried over unchanged |
| GoogleMapWrapper.ToLatLng | Business/GoogleMapBusinessProvider.cs:438-439 | the request coordinate carries the point's latitude and longitude unchanged |
| GoogleMapWrapper.CoordinateConversionsInverse | Business/GoogleMapWrapper.cs:20-23 | the two coordinate conversions are inverse to each other |
| GoogleMapWrapper.ToGeoCoderStatusCode | Business/GoogleMapWrapper.cs:31-56 | the preimage of every code: success exactly for Ok, bad request for InvalidRequest, too many queries for OverQueryLimit or RequestDenied, unknown address for ZeroResults, Unknow for Unknown, exception in code for every other status |
| GoogleMapWrapper.StatusMappingNotInjective | Business/GoogleMapWrapper.cs:41-45 | OverQueryLimit and RequestDenied differ but map to the same code |
| GoogleMapWrapper.StatusMappingCollisions | Business/GoogleMapWrapper.cs:33-55 | two statuses share a code only if equal, both unrecognized, or both in the over-limit pair |
| GoogleMapWrapper.ToAccuracyValue | Business/GoogleMapWrapper.cs:63-85 | the accuracy lies in [0, 1]; it is 0 exactly for the unknown and for unrecognized location types, 1 exactly for rooftop |
| GoogleMapWrapper.AccuracyStrictlyIncreasing | Business/GoogleMapWrapper.cs:65-80 | along Unknown < Approximate < GeometricCenter < RangeInterpolated < Rooftop the accuracy strictly increases, and only there |
| GoogleMapWrapper.FindAddressPart | Business/GoogleMapWrapper.cs:115-120 | null exactly when no component has the type; otherwise the long name of the first component that has it |
| GoogleMapWrapper.ToPlacemark | Business/GoogleMapWrapper.cs:93-106 | the address is the formatted address; house number, country, postal code and thoroughfare are the first matching components; district and thoroughfare always agree |
| Geocoding.KeywordRequest | Business/GoogleMapBusinessProvider.cs:343-347 | a forward lookup asks about exactly the keywords, without sensor |
| Geocoding.ReverseRequest | Business/GoogleMapBusinessProvider.cs:386-390 | a reverse lookup asks about a coordinate that converts back to the given point, without sensor |
| Geocoding.GetPoint | Business/GoogleMapBusinessProvider.cs:338-361 | the status is the mapped response status; null with accuracy 0 exactly when there are no results, else the first result's coordinates and accuracy |
| Geocoding.GetPointAndStatus | Business/GoogleMapBusinessProvider.cs:332-336 | the two-output overload returns the point and status of the full lookup |
| Geocoding.GetPoints | Business/GoogleMapBusinessProvider.cs:363-378 | one point per result, in result order, each the result's location; the mapped status |
| Geocoding.GetPointIsHeadOfGetPoints | Business/GoogleMapBusinessProvider.cs:338-378 | the single lookup is null exactly when the list lookup is empty and otherwise its first point, with the same status |
| Geocoding.GetPlacemarks | Business/GoogleMapBusinessProvider.cs:384-400 | one placemark per result, in result order, each assembled from its result; the mapped status |
| Geocoding.GetPlacemark | Business/GoogleMapBusinessProvider.cs:402-416 | null exactly when there are no results, else the first result's placemark; the mapped status |
| Geocoding.GetPlacemarkIsHeadOfGetPlacemarks | Business/GoogleMapBusinessProvider.cs:384-416 | the single reverse lookup is null exactly when the list lookup is empty and otherwise its first placemark |
| Routing.ConcatLength | Business/GoogleMapBusinessProvider.cs:484-497 | the concatenated polyline is as long as the step polylines together |
| Routing.ConcatPlacesPart | Business/GoogleMapBusinessProvider.cs:484-497 | each step's decoded polyline appears unchanged in the result, right after the polylines of the steps before it |
| Routing.AssembleHQPolyline | Business/GoogleMapBusinessProvider.cs:484-497 | the result is the leg-by-leg, step-by-step concatenation of the decoded step polylines, and its length the sum of theirs |
| Routing.AppendLegSteps | Business/GoogleMapBusinessProvider.cs:490-493 | appending one leg's steps extends the route by their decoded polylines, in step order, keeping what was there as a prefix |
| Routing.RouteRequest | Business/GoogleMapBusinessProvider.cs:438-447 | origin and destination convert back to the two given points; no sensor; walking exactly when walking mode is asked for, driving otherwise |
| Routing.GetRoute | Business/GoogleMapBusinessProvider.cs:435-469 | a route exactly when the status is Ok and there is a route; it has one point per point of the first route's high-quality polyline, in order, and the route's summary as name |
| CachedHttp.CreateResponse | Business/GMapsCachedHttpGetResponseFactory.cs:14-17 | the factory passes the URI and the no-cache flag through unchanged |
| CachedHttp.AsString | Business/GMapsCachedHttpGetResponseFactory.cs:33-67 | a non-empty cached text is returned from the cache with no other effect; a bypassed cache leads straight to a request of the signed URI; the result is from the cache exactly when no request was made; every cache read uses the unsigned URI, the URL cache and the 20-day maximum age; every write uses the unsigned URI |
| CachedHttp.GetContent | Business/GMapsCachedHttpGetResponseFactory.cs:71-75 | the text stored in the URL cache under the URI, when it is no older than the lifetime; null otherwise |
| CachedHttp.SaveContent | Business/GMapsCachedHttpGetResponseFactory.cs:77-80 | the URL-cache entry under the URI becomes the content stamped with the current time; every other entry is kept |
| CachedHttp.SaveThenGet | Business/GMapsCachedHttpGetResponseFactory.cs:71-80 | what is saved under a URI is read back under it exactly while the lifetime lasts; other URIs read as before |
| CachedHttp.EmptyCachedTextIsMiss | Business/GMapsCachedHttpGetResponseFactory.cs:38-49 | an empty cached text is a miss: the signed URI is requested and the result is not from the cache |
| CachedHttp.FetchedBodyCachedUnderUnsignedUri | Business/GMapsCachedHttpGetResponseFactory.cs:45-81 | after a miss, a fetched body is returned and stored under the unsigned URI, the write is the last effect, and every other entry is untouched |
| CachedHttp.NoBodyLeavesCacheUnchanged | Business/GMapsCachedHttpGetResponseFactory.cs:51-66 | a null response or stream leaves the cache unchanged and returns the value read so far: empty when the cache was bypassed, the null or empty cached text otherwise |
| CachedHttp.WebExceptionPropagates | Business/GMapsCachedHttpGetResponseFactory.cs:49 | a web exception from the request propagates and the cache is unchanged |
| CachedHttp.SecondRequestServedFromCache | Business/GMapsCachedHttpGetResponseFactory.cs:33-81 | after a request fetched a non-empty body, a second request for the same URI within 20 days returns the same text from the cache without a network request |
| CachedHttp.ForceNoCacheSkipsLookupStillSaves | Business/GMapsCachedHttpGetResponseFactory.cs:38-62 | with the cache bypassed nothing is read from it, yet a fetched body is still written to it |
| CachedHttp.MissThenNullResponseReturnsNull | Business/GMapsCachedHttpGetResponseFactory.cs:35-66 | with no cache entry and a null response the result is null, not the empty string |
| ProvidersBusiness.AllGoogleBusinessProviders | GMapProvidersBusiness.cs:10-18 | four providers, in the order roadmap, satellite, hybrid, terrain, one per map type, each as its constructor leaves it |
| ProvidersBusiness.AssignFrom | GMapProvidersBusiness.cs:27-30 | the loop from a given provider on leaves the providers before it alone, keeps every provider's map type and branding switch, and a throw carries the setter's format error for the value |
| ProvidersBusiness.SetGoogleCreditalString | GMapProvidersBusiness.cs:23-32 | a null value changes nothing; a malformed value throws the format error at the first provider, before any provider or the signer changed; a valid value stores the same parsed id and key in every provider, changes nothing else, and installs the parsed signer |
| ProvidersBusiness.BulkValueSharedByAllFour | GMapProvidersBusiness.cs:10-32 | after a valid bulk value the four singletons keep their map types and all report the same credential string, which parses as the value did and, assigned back to any of them, changes nothing |

## Left out

- `TileToWorldPos` and the tile-centre `+ 0.5` are floating-point transcendental computations; a static-map request carries the tile position and zoom instead of the computed centre.
- The `Debug.WriteLine` of a caught web exception's message during a tile fetch is debug output only and does not affect the result; it is not modelled.
- One `AsString` call happens at one instant: the cache write is stamped with the time of the lookup, not the later time at which the network round trip ends, so the cache age the model measures for a second request is at least the real one.
- Building the static-map URL, signing it with `GoogleSigned`, and loading it through `GetTileImageUsingHttp` are external; together they are one oracle from request to transfer outcome.
- PNG decoding and encoding, `Bitmap`, `TileImageProxy` and `MemoryStream` are left out; an image is a sequence of ARGB pixel rows. An exception the `Bitmap` constructor throws for undecodable data is not modelled.
- BusinessProvider.SetCreditals: constructing the `GoogleSigned` signer is assumed never to throw. Its constructor belongs to the client library, which is not part of this model; if it rejected a key it cannot decode, it would throw after both fields were stored, and neither `SetCreditalString`'s "always installs their signer" nor the bulk setter's valid case would then hold.
- TileAccess.CropImage: models the drawing as a pixel copy, leaving out GDI+ resolution scaling and interpolation, which would apply only if the two bitmaps' DPI differed.
- The cache storage engine is external; only its interface is modelled: a lookup returns an entry no older than the requested age, a save overwrites the entry with the current time.
- `DefaultMaxCacheAge` is a public mutable static field; the model treats it as the constant 20 days it is initialised to.
- `Uri.ToString` canonicalisation and the `StreamReader` text decoding are left out: a URI is its string, a response stream is its text.
- Only a web exception from the request is modelled; exceptions from the response stream, the tile loader, and the geocoding and directions services propagate unmodelled: those are total oracles.
- `PolylineEncoder.Decode` is an uninterpreted oracle; the private `AssembleOverviewPolyline` is never called and is not modelled.
- GoogleMapWrapper.ToAccuracyValue: models the single-precision constants 0.2f, 0.5f and 0.8f as exact decimals; bounds and ordering are unaffected.
- Only the geocoder status codes the mapping produces are modelled, and the service statuses without a case of their own are one `Unrecognized` constructor.
- A null `LongName` or `FormattedAddress` from the client library is not modelled.
- The obsolete placemark-based `GetPoint`/`GetPoints` overloads and the string-based `GetRoute` always throw and are not modelled.
- `Id`, `Name`, `Projection`, `Overlays`, the copyright string built from the current date, and the constructor's assignment of the HTTP factory are constants or external wiring and are not modelled.
- Concurrent callers and races on the shared signing instance and cache are left out; every operation is one atomic state transition.

=== FILE: business_provider.dfy ===
/**
 * The state of one Google Maps for Business provider instance and the
 * setters that change it: `SetCreditals` and the `CreditalString` property.
 *
 * The provider's mutable fields become an immutable record; every setter
 * returns the new record together with the process-wide signing instance
 * (`GoogleSigned.SigningInstance`), which `SetCreditals` may replace.
 * A thrown `FormatException` is an outcome value; the caller's state is
 * then the state it passed in.
 */
module BusinessProvider {
  import opened Common
  import opened CredentialCodec

  /** The four static-map types a provider instance can render. */
  datatype MapType = Roadmap | Satellite | Hybrid | Terrain

  /** A `GoogleSigned` instance: the client id and private key outbound URLs are signed with. */
  datatype Signer = Signer(clientId: string, privateKey: string)

  /**
   * A provider instance: its map type (fixed by the constructor), the stored
   * client id and private key (null until set), and the branding switch,
   * which starts true and is never changed.
   */
  datatype Provider = Provider(mapType: MapType, clientId: Option<string>, privateKey: Option<string>, removeBranding: bool)

  /**
   * A provider as its constructor leaves it: the given map type, no client
   * id or private key yet, branding removal on.
   */
  function NewProvider(mapType: MapType): (p: Provider)
    ensures p.mapType == mapType
    ensures p.clientId.None? && p.privateKey.None?
    ensures p.removeBranding
  {
    Provider(mapType, None, None, true)
  }

  /** A provider together with the process-wide signing instance. */
  datatype Configured = Configured(provider: Provider, signing: Option<Signer>)

  /**
   * `SetCreditals`: both values are always stored; the signing instance is
   * replaced only when both are non-null and non-empty.
   */
  function SetCreditals(p: Provider, signing: Option<Signer>, clientId: Option<string>, privateKey: Option<string>): (r: Configured)
    ensures r.provider.clientId == clientId && r.provider.privateKey == privateKey
    ensures r.provider.mapType == p.mapType && r.provider.removeBranding == p.removeBranding
    ensures !IsNullOrEmpty(clientId) && !IsNullOrEmpty(privateKey) ==> r.signing == Some(Signer(clientId.value, privateKey.value))
    ensures IsNullOrEmpty(clientId) || IsNullOrEmpty(privateKey) ==> r.signing == signing
  {
    var p' := p.(clientId := clientId, privateKey := privateKey);
    if !IsNullOrEmpty(clientId) && !IsNullOrEmpty(privateKey) then
      Configured(p', Some(Signer(clientId.value, privateKey.value)))
    else
      Configured(p', signing)
  }

  /**
   * The `CreditalString` getter: `id=`, the stored id, `;key=` and the stored
   * key side by side, a null part contributing nothing. It parses back to
   * the stored pair when both parts are non-empty single-line strings and
   * the key holds no usable `;key=` of its own.
   */
  function CreditalString(p: Provider): (r: string)
    ensures var id, key := OrEmpty(p.clientId), OrEmpty(p.privateKey);
      var b := |IdPrefix| + |id|;
      && |r| == b + |KeySeparator| + |key|
      && r[..|IdPrefix|] == IdPrefix
      && r[|IdPrefix|..b] == id
      && r[b..b + |KeySeparator|] == KeySeparator
      && r[b + |KeySeparator|..] == key
    ensures p.clientId.Some? && p.privateKey.Some? && p.clientId.value != [] && p.privateKey.value != []
      && SingleLine(p.clientId.value) && SingleLine(p.privateKey.value) && NoInnerSeparator(p.privateKey.value)
      ==> ParseCredital(r) == ParseResult(true, p.clientId, p.privateKey)
  {
    var r := FormatCredital(p.clientId, p.privateKey);
    assert p.clientId.Some? && p.privateKey.Some? && p.clientId.value != [] && p.privateKey.value != []
      && SingleLine(p.clientId.value) && SingleLine(p.privateKey.value) && NoInnerSeparator(p.privateKey.value)
      ==> ParseCredital(r) == ParseResult(true, p.clientId, p.privateKey) by {
      if p.clientId.Some? && p.privateKey.Some? && p.clientId.value != [] && p.privateKey.value != []
        && SingleLine(p.clientId.value) && SingleLine(p.privateKey.value) && NoInnerSeparator(p.privateKey.value) {
        FormatParseRoundTrip(p.clientId.value, p.privateKey.value);
      }
    }
    r
  }

  /** The outcome of the `CreditalString` setter: it returns normally or throws a `FormatException`. */
  datatype SetOutcome = Assigned(configured: Configured) | FormatException(message: string)

  const FormatErrorMessage: string := "CreditalString has an invalid format and could not be parsed: "

  /**
   * The `CreditalString` setter. A null value is ignored; a value the
   * credential pattern does not match throws; otherwise the two groups are
   * stored, and since both groups are non-empty the signing instance is
   * always replaced.
   */
  function SetCreditalString(p: Provider, signing: Option<Signer>, value: Option<string>): (r: SetOutcome)
    ensures value.None? ==> r == Assigned(Configured(p, signing))
    ensures value.Some? ==> (r.FormatException? <==> !Matches(value.value))
    ensures r.FormatException? ==> value.Some? && r.message == FormatErrorMessage + value.value
    ensures value.Some? && Matches(value.value) ==>
      var parsed := ParseCredital(value.value);
      && r.Assigned?
      && r.configured.provider == p.(clientId := parsed.clientId, privateKey := parsed.key)
      && parsed.clientId.Some? && parsed.key.Some?
      && r.configured.signing == Some(Signer(parsed.clientId.value, parsed.key.value))
  {
    if value.None? then Assigned(Configured(p, signing))
    else
      var parsed := ParseCredital(value.value);
      if parsed.success then
        ParsedPartsNonEmpty(value.value);
        Assigned(SetCreditals(p, signing, parsed.clientId, parsed.key))
      else
        FormatException(FormatErrorMessage + value.value)
  }

  /**
   * Assigning the getter's string back to a provider whose credentials were
   * set from a string changes nothing, neither the provider nor the signer.
   */
  lemma SetGetSetIdempotent(p: Provider, signing: Option<Signer>, value: string)
    requires Matches(value)
    ensures var first := SetCreditalString(p, signing, Some(value));
      && first.Assigned?
      && var c := first.configured;
      SetCreditalString(c.provider, c.signing, Some(CreditalString(c.provider))) == first
  {
    var first := SetCreditalString(p, signing, Some(value));
    var c := first.configured;
    var parsed := ParseCredital(value);
    ParseFormatParse(value);
    assert ParseCredital(CreditalString(c.provider)) == parsed;
    assert parsed.success;
  }

  /**
   * The string a fresh provider's getter returns cannot be assigned back:
   * the setter throws.
   */
  lemma FreshProviderStringRejected(mapType: MapType, signing: Option<Signer>)
    ensures var p := NewProvider(mapType);
      SetCreditalString(p, signing, Some(CreditalString(p))).FormatException?
  {
    UnsetCreditalsDoNotParse();
  }
}

=== FILE: cached_http.dfy ===
/**
 * The cached HTTP GET response the provider installs as the HTTP factory of
 * the Google Maps client library: `AsString` answers from the URL cache when
 * it can and otherwise fetches the signed URL and stores the body.
 *
 * The cache storage engine is modelled by its interface only: a map from
 * (key, cache type) to the stored text and the time it was stored, whose
 * lookup returns an entry no older than the requested maximum age and null
 * otherwise. The network is an oracle from URL to what the request yields,
 * and URL signing is an oracle from URL to signed URL. `AsString` returns
 * its value together with the new cache and the sequence of external
 * effects it performed, in order.
 */
module CachedHttp {
  import opened Common

  /** A .NET `TimeSpan`, in 100-nanosecond ticks. */
  datatype TimeSpan = TimeSpan(ticks: int)

  const TicksPerDay: int := 864_000_000_000

  function FromDays(days: int): TimeSpan {
    TimeSpan(days * TicksPerDay)
  }

  /** The maximum age of a cached response that `AsString` accepts. */
  const DefaultMaxCacheAge: TimeSpan := FromDays(20)

  /** The cache partitions of the storage engine; responses live under `UrlCache`. */
  datatype CacheType = UrlCache | OtherCacheType(name: string)

  /** A stored text and its storage time, in ticks. */
  datatype Stored = Stored(content: string, savedAt: int)

  type CacheStore = map<(string, CacheType), Stored>

  /** The storage engine's lookup: the stored text if it is no older than `maxAge`, else null. */
  function CacheLookup(store: CacheStore, key: string, category: CacheType, maxAge: TimeSpan, now: int): Option<string> {
    if (key, category) in store && now - store[(key, category)].savedAt <= maxAge.ticks
    then Some(store[(key, category)].content)
    else None
  }

  /** The storage engine's save: the entry is (over)written with the current time. */
  function CacheSave(store: CacheStore, key: string, category: CacheType, content: string, now: int): CacheStore {
    store[(key, category) := Stored(content, now)]
  }

  /** A response object as the factory creates it: the request URI and whether the cache is bypassed. */
  datatype CachedResponse = CachedResponse(requestUri: string, dontUseCache: bool)

  /** `GMapsCachedHttpGetResponseFactory.CreateResponse`: both arguments pass through unchanged. */
  function CreateResponse(uri: string, forceNoCache: bool): (r: CachedResponse)
    ensures r.requestUri == uri && r.dontUseCache == forceNoCache
  {
    CachedResponse(uri, forceNoCache)
  }

  /** What requesting a URL yields: a response whose stream may be null, a null response, or a `WebException`. */
  datatype WebResult = Response(stream: Option<string>) | NullResponse | WebException(message: string)

  /** The external effects of `AsString`, in the order performed. */
  datatype Effect =
    | CacheRead(key: string, category: CacheType, maxAge: TimeSpan)
    | NetworkGet(uri: string)
    | CacheWrite(key: string, category: CacheType, content: string)

  /**
   * `GetContent`: the URL-cache entry stored under the URI's string, when it
   * is no older than the lifetime; null otherwise.
   */
  function GetContent(store: CacheStore, request: string, cacheLifetime: TimeSpan, now: int): (r: Option<string>)
    ensures r.Some? <==> (request, UrlCache) in store && now - store[(request, UrlCache)].savedAt <= cacheLifetime.ticks
    ensures r.Some? ==> r.value == store[(request, UrlCache)].content
  {
    CacheLookup(store, request, UrlCache, cacheLifetime, now)
  }

  /**
   * `SaveContent`: the URL-cache entry under the URI's string becomes the
   * content, stamped with the current time; every other entry is kept.
   */
  function SaveContent(store: CacheStore, request: string, responseContent: string, now: int): (r: CacheStore)
    ensures r.Keys == store.Keys + {(request, UrlCache)}
    ensures r[(request, UrlCache)] == Stored(responseContent, now)
    ensures forall k :: k in store && k != (request, UrlCache) ==> r[k] == store[k]
  {
    CacheSave(store, request, UrlCache, responseContent, now)
  }

  /**
   * What `SaveContent` stores, `GetContent` returns under the same URI for as
   * long as the lifetime lasts, and not after; other URIs read as before.
   */
  lemma SaveThenGet(store: CacheStore, request: string, content: string, now: int, lifetime: TimeSpan, later: int, other: string)
    ensures var saved := SaveContent(store, request, content, now);
      && (GetContent(saved, request, lifetime, later) == Some(content) <==> later - now <= lifetime.ticks)
      && (other != request ==> GetContent(saved, other, lifetime, later) == GetContent(store, other, lifetime, later))
  {
  }

  /**
   * The outcome of `AsString`: the returned string (null when the cache
   * answered null and the fetch produced nothing) with the `FromCache` flag,
   * or the propagated `WebException`; each with the cache and effects.
   */
  datatype AsStringOutcome =
    | Returned(output: Option<string>, fromCache: bool, store: CacheStore, effects: seq<Effect>)
    | Raised(message: string, store: CacheStore, effects: seq<Effect>)

  /**
   * `AsString`.
   *  - unless the cache is bypassed, it reads the URL cache under the
   *    unsigned URI with the default maximum age;
   *  - a non-empty cached text is returned as it is, with nothing else done;
   *  - otherwise (a null or empty cached text, or a bypassed cache) the signed
   *    URI is requested; a body is stored under the unsigned URI and
   *    returned; a null response or stream leaves the value read so far.
   */
  function AsString(response: CachedResponse, store: CacheStore, now: int,
                    sign: string -> string, web: string -> WebResult): (r: AsStringOutcome)
    ensures var cached := GetContent(store, response.requestUri, DefaultMaxCacheAge, now);
      !response.dontUseCache && !IsNullOrEmpty(cached) ==>
        r == Returned(cached, true, store, [CacheRead(response.requestUri, UrlCache, DefaultMaxCacheAge)])
    ensures response.dontUseCache ==> |r.effects| >= 1 && r.effects[0] == NetworkGet(sign(response.requestUri))
    ensures r.Returned? ==> (r.fromCache <==> NetworkGet(sign(response.requestUri)) !in r.effects)
    ensures r.Returned? && r.fromCache ==> r.store == store && !IsNullOrEmpty(r.output)
    ensures forall e :: e in r.effects && e.CacheRead? ==> e == CacheRead(response.requestUri, UrlCache, DefaultMaxCacheAge)
    ensures forall e :: e in r.effects && e.CacheWrite? ==> e.key == response.requestUri && e.category == UrlCache
  {
    var lookups := if response.dontUseCache then [] else [CacheRead(response.requestUri, UrlCache, DefaultMaxCacheAge)];
    var output := if response.dontUseCache then Some("") else GetContent(store, response.requestUri, DefaultMaxCacheAge, now);
    var fromCache := !IsNullOrEmpty(output);
    if fromCache then Returned(output, true, store, lookups)
    else
      var signed := sign(response.requestUri);
      var effects := lookups + [NetworkGet(signed)];
      match web(signed)
      case WebException(message) => Raised(message, store, effects)
      case NullResponse => Returned(output, false, store, effects)
      case Response(stream) =>
        if stream.None? then Returned(output, false, store, effects)
        else
          var body := stream.value;
          Returned(Some(body), false, SaveContent(store, response.requestUri, body, now),
                   effects + [CacheWrite(response.requestUri, UrlCache, body)])
  }

  /** An empty cached text is a miss: the signed URI is fetched and the result is not from the cache. */
  lemma EmptyCachedTextIsMiss(response: CachedResponse, store: CacheStore, now: int,
                              sign: string -> string, web: string -> WebResult)
    requires !response.dontUseCache
    requires GetContent(store, response.requestUri, DefaultMaxCacheAge, now) == Some("")
    ensures var r := AsString(response, store, now, sign, web);
      && r.effects[..2] == [CacheRead(response.requestUri, UrlCache, DefaultMaxCacheAge), NetworkGet(sign(response.requestUri))]
      && (r.Returned? ==> !r.fromCache)
  {
  }

  /**
   * A fetched body is stored under the unsigned URI, although the request
   * went to the signed one; every other cache entry is untouched.
   */
  lemma FetchedBodyCachedUnderUnsignedUri(response: CachedResponse, store: CacheStore, now: int,
                                          sign: string -> string, web: string -> WebResult)
    requires response.dontUseCache || IsNullOrEmpty(GetContent(store, response.requestUri, DefaultMaxCacheAge, now))
    requires web(sign(response.requestUri)).Response? && web(sign(response.requestUri)).stream.Some?
    ensures var body := web(sign(response.requestUri)).stream.value;
      var r := AsString(response, store, now, sign, web);
      && r == Returned(Some(body), false, r.store, r.effects)
      && r.store.Keys == store.Keys + {(response.requestUri, UrlCache)}
      && r.store[(response.requestUri, UrlCache)].content == body
      && GetContent(r.store, response.requestUri, DefaultMaxCacheAge, now) == Some(body)
      && (forall k :: k in store && k != (response.requestUri, UrlCache) ==> r.store[k] == store[k])
      && r.effects[|r.effects| - 1] == CacheWrite(response.requestUri, UrlCache, body)
  {
  }

  /**
   * A null response or a null stream returns the value read so far (the
   * empty string when the cache was bypassed, the null or empty cached text
   * otherwise) and leaves the cache unchanged.
   */
  lemma NoBodyLeavesCacheUnchanged(response: CachedResponse, store: CacheStore, now: int,
                                   sign: string -> string, web: string -> WebResult)
    requires response.dontUseCache || IsNullOrEmpty(GetContent(store, response.requestUri, DefaultMaxCacheAge, now))
    requires web(sign(response.requestUri)) == NullResponse || web(sign(response.requestUri)) == Response(None)
    ensures var r := AsString(response, store, now, sign, web);
      && r.Returned? && !r.fromCache && r.store == store
      && IsNullOrEmpty(r.output)
      && (response.dontUseCache ==> r.output == Some(""))
      && (!response.dontUseCache ==> r.output == GetContent(store, response.requestUri, DefaultMaxCacheAge, now))
  {
  }

  /** A `WebException` from the request propagates, and the cache is unchanged. */
  lemma WebExceptionPropagates(response: CachedResponse, store: CacheStore, now: int,
                               sign: string -> string, web: string -> WebResult)
    requires response.dontUseCache || IsNullOrEmpty(GetContent(store, response.requestUri, DefaultMaxCacheAge, now))
    requires web(sign(response.requestUri)).WebException?
    ensures var r := AsString(response, store, now, sign, web);
      r == Raised(web(sign(response.requestUri)).message, store, r.effects)
  {
  }

  /**
   * Two requests for the same URI within the maximum age: once the first has
   * fetched a non-empty body, the second returns the same text from the
   * cache without a network request, whatever the network would now answer.
   */
  lemma SecondRequestServedFromCache(uri: string, forceNoCache: bool, store: CacheStore, now: int, later: int,
                                       sign: string -> string, web: string -> WebResult, web2: string -> WebResult)
    requires now <= later <= now + DefaultMaxCacheAge.ticks
    requires var first := AsString(CreateResponse(uri, forceNoCache), store, now, sign, web);
      first.Returned? && !first.fromCache && first.output.Some? && first.output.value != ""
    ensures var first := AsString(CreateResponse(uri, forceNoCache), store, now, sign, web);
      var second := AsString(CreateResponse(uri, false), first.store, later, sign, web2);
      && second == Returned(first.output, true, first.store, [CacheRead(uri, UrlCache, DefaultMaxCacheAge)])
  {
    var first := AsString(CreateResponse(uri, forceNoCache), store, now, sign, web);
    var body := web(sign(uri)).stream.value;
    assert first.store == SaveContent(store, uri, body, now);
    assert GetContent(first.store, uri, DefaultMaxCacheAge, later) == Some(body);
  }

  /** A bypassed cache is never read, yet a fetched body is still written to it. */
  lemma ForceNoCacheSkipsLookupStillSaves(uri: string, store: CacheStore, now: int,
                                          sign: string -> string, web: string -> WebResult)
    ensures var r := AsString(CreateResponse(uri, true), store, now, sign, web);
      && (forall e :: e in r.effects ==> !e.CacheRead?)
      && (web(sign(uri)).Response? && web(sign(uri)).stream.Some? ==>
            r.store[(uri, UrlCache)].content == web(sign(uri)).stream.value)
  {
  }

  /**
   * The code returns null, not the empty string, when the cache has no entry
   * and the request yields a null response.
   */
  lemma MissThenNullResponseReturnsNull(uri: string, store: CacheStore, now: int,
                                        sign: string -> string, web: string -> WebResult)
    requires (uri, UrlCache) !in store
    requires web(sign(uri)) == NullResponse
    ensures AsString(CreateResponse(uri, false), store, now, sign, web).output == None
  {
  }
}

=== FILE: common.dfy ===
/**
 * Values shared by every module: a nullable wrapper standing in for .NET
 * references that may be null, and the two string helpers of the .NET
 * base library that the adapter relies on.
 */
module Common {

  /** A .NET reference that may be null: `None` is null. */
  datatype Option<+T> = None | Some(value: T)

  /** `String.IsNullOrEmpty`. */
  predicate IsNullOrEmpty(s: Option<string>) {
    s.None? || s.value == ""
  }

  /** What a possibly-null string contributes to a C# `+` concatenation: null becomes "". */
  function OrEmpty(s: Option<string>): string {
    if s.None? then "" else s.value
  }
}

=== FILE: credential_codec.dfy ===
/**
 * The credential string of a business provider: the getter formats
 * `id=<id>;key=<key>`, the setter matches the unanchored .NET regular
 * expression `id=(.+);key=(.+)`.
 *
 * The regular expression is modelled exactly, for any input: `.` matches
 * every character except '\n'; the engine reports the match that starts
 * leftmost; for that start the greedy group 1 is as long as possible
 * (so the split falls on the last usable `;key=` of the line), and the
 * greedy group 2 runs to the end of the line.
 */
module CredentialCodec {
  import opened Common

  const IdPrefix: string := "id="
  const KeySeparator: string := ";key="

  /** The parse outcome: the method's boolean result and its two out parameters. */
  datatype ParseResult = ParseResult(success: bool, clientId: Option<string>, key: Option<string>)

  /** True when `p` occurs in `s` at index `i`. */
  predicate OccursAt(s: string, i: int, p: string) {
    0 <= i && i + |p| <= |s| && s[i..i + |p|] == p
  }

  /** The characters the regular-expression atom `.` accepts. */
  predicate Dot(c: char) {
    c != '\n'
  }

  /** The end of the run of `.` characters starting at `i`: where a greedy `.+` or `.*` stops. */
  function LineEnd(s: string, i: nat): (e: nat)
    requires i <= |s|
    ensures i <= e <= |s|
    ensures forall k :: i <= k < e ==> Dot(s[k])
    ensures e < |s| ==> !Dot(s[e])
    decreases |s| - i
  {
    if i == |s| || !Dot(s[i]) then i else LineEnd(s, i + 1)
  }

  // ---------------------------------------------------------------------
  // Reference semantics of `id=(.+);key=(.+)`
  // ---------------------------------------------------------------------

  /**
   * The pattern matches `s` with the match beginning at `start` and group 1
   * ending at `split` (where `;key=` begins).  Group 2 only needs one `.`
   * character after the separator.
   */
  ghost predicate MatchAt(s: string, start: int, split: int) {
    && OccursAt(s, start, IdPrefix)
    && start + |IdPrefix| < split
    && OccursAt(s, split, KeySeparator)
    && split + |KeySeparator| < |s|
    && Dot(s[split + |KeySeparator|])
    && (forall k :: start + |IdPrefix| <= k < split ==> Dot(s[k]))
  }

  /** `Regex.Match(s).Success`. */
  ghost predicate Matches(s: string) {
    exists start, split :: MatchAt(s, start, split)
  }

  /** The match the backtracking engine reports: leftmost start, then the longest group 1. */
  ghost predicate ChosenMatch(s: string, start: int, split: int) {
    && MatchAt(s, start, split)
    && (forall st, sp :: MatchAt(s, st, sp) ==> start <= st)
    && (forall sp :: MatchAt(s, start, sp) ==> sp <= split)
  }

  /** Group 1 of a match: the client id. */
  function Group1(s: string, start: nat, split: nat): string
    requires start + |IdPrefix| <= split <= |s|
  {
    s[start + |IdPrefix|..split]
  }

  /** Group 2 of a match: the key, up to the end of the line. */
  function Group2(s: string, split: nat): string
    requires split + |KeySeparator| <= |s|
  {
    s[split + |KeySeparator|..LineEnd(s, split + |KeySeparator|)]
  }

  /** There is at most one chosen match. */
  lemma ChosenMatchUnique(s: string, st1: int, sp1: int, st2: int, sp2: int)
    requires ChosenMatch(s, st1, sp1) && ChosenMatch(s, st2, sp2)
    ensures st1 == st2 && sp1 == sp2
  {
  }

  // ---------------------------------------------------------------------
  // The engine's search
  // ---------------------------------------------------------------------

  /**
   * Backtracking of the greedy group 1 for a match starting at `start`:
   * group-1 ends are tried from `g` downwards, the first that lets
   * `;key=(.+)` match wins.
   */
  function SplitFrom(s: string, start: nat, g: nat): (r: Option<nat>)
    requires OccursAt(s, start, IdPrefix)
    requires start + |IdPrefix| <= g <= LineEnd(s, start + |IdPrefix|)
    ensures r.Some? ==> MatchAt(s, start, r.value) && r.value <= g
    ensures r.Some? ==> forall sp :: r.value < sp <= g ==> !MatchAt(s, start, sp)
    ensures r.None? ==> forall sp :: sp <= g ==> !MatchAt(s, start, sp)
    decreases g
  {
    if g <= start + |IdPrefix| then None
    else if OccursAt(s, g, KeySeparator) && g + |KeySeparator| < |s| && Dot(s[g + |KeySeparator|]) then Some(g)
    else SplitFrom(s, start, g - 1)
  }

  /** Group 1 never crosses a newline, so no split lies beyond the end of the line. */
  lemma SplitWithinLine(s: string, start: nat, split: int)
    requires MatchAt(s, start, split)
    ensures split <= LineEnd(s, start + |IdPrefix|)
  {
    LineEndBound(s, start + |IdPrefix|, split);
  }

  /** A run of `.` characters from `i` to `j` ends no earlier than `j`. */
  lemma {:induction false} LineEndBound(s: string, i: nat, j: nat)
    requires i <= j <= |s|
    requires forall k :: i <= k < j ==> Dot(s[k])
    ensures j <= LineEnd(s, i)
    decreases j - i
  {
    if i < j {
      LineEndBound(s, i + 1, j);
    }
  }

  /** The greedy group 1 for a match at `start`: the last usable split on the line. */
  function GreedySplit(s: string, start: nat): (r: Option<nat>)
    requires OccursAt(s, start, IdPrefix)
    ensures r.Some? ==> MatchAt(s, start, r.value)
    ensures r.Some? ==> forall sp :: MatchAt(s, start, sp) ==> sp <= r.value
    ensures r.None? ==> forall sp :: !MatchAt(s, start, sp)
  {
    var e := LineEnd(s, start + |IdPrefix|);
    var r := SplitFrom(s, start, e);
    assert forall sp :: MatchAt(s, start, sp) ==> sp <= e by {
      forall sp | MatchAt(s, start, sp) {
        SplitWithinLine(s, start, sp);
      }
    }
    r
  }

  /** The scan for the leftmost match, trying start positions from `i` upwards. */
  function MatchFrom(s: string, i: nat): (r: Option<(nat, nat)>)
    requires i <= |s|
    ensures r.Some? ==> i <= r.value.0 && MatchAt(s, r.value.0, r.value.1)
    ensures r.Some? ==> forall st, sp :: MatchAt(s, st, sp) && i <= st ==> r.value.0 <= st
    ensures r.Some? ==> forall sp :: MatchAt(s, r.value.0, sp) ==> sp <= r.value.1
    ensures r.None? ==> forall st, sp :: MatchAt(s, st, sp) ==> st < i
    decreases |s| - i
  {
    if i == |s| then None
    else if OccursAt(s, i, IdPrefix) then
      match GreedySplit(s, i)
      case Some(sp) => Some((i, sp))
      case None => MatchFrom(s, i + 1)
    else MatchFrom(s, i + 1)
  }

  /**
   * `ParseCredital`: on a match the groups become the client id and the key;
   * otherwise both out parameters are null.
   */
  function ParseCredital(credital: string): (r: ParseResult)
    ensures r.success <==> Matches(credital)
    ensures !r.success ==> r.clientId.None? && r.key.None?
    ensures r.success ==> exists start: nat, split: nat ::
      && ChosenMatch(credital, start, split)
      && split + |KeySeparator| <= |credital|
      && r.clientId == Some(Group1(credital, start, split))
      && r.key == Some(Group2(credital, split))
  {
    match MatchFrom(credital, 0)
    case None => ParseResult(false, None, None)
    case Some((start, split)) =>
      ParseResult(true, Some(Group1(credital, start, split)), Some(Group2(credital, split)))
  }

  /**
   * The getter: `"id=" + _clientId + ";key=" + _privateKey`, with null fields
   * contributing "". The four parts sit side by side, in that order.
   */
  function FormatCredital(clientId: Option<string>, privateKey: Option<string>): (s: string)
    ensures var id, key := OrEmpty(clientId), OrEmpty(privateKey);
      var b := |IdPrefix| + |id|;
      && |s| == b + |KeySeparator| + |key|
      && s[..|IdPrefix|] == IdPrefix
      && s[|IdPrefix|..b] == id
      && s[b..b + |KeySeparator|] == KeySeparator
      && s[b + |KeySeparator|..] == key
  {
    var id, key := OrEmpty(clientId), OrEmpty(privateKey);
    var s := ((IdPrefix + id) + KeySeparator) + key;
    assert s[..|IdPrefix| + |id| + |KeySeparator|] == (IdPrefix + id) + KeySeparator;
    assert s[..|IdPrefix| + |id|] == IdPrefix + id;
    s
  }

  // ---------------------------------------------------------------------
  // Properties
  // ---------------------------------------------------------------------

  /** Every character of `s` is a `.` character. */
  predicate SingleLine(s: string) {
    forall k :: 0 <= k < |s| ==> Dot(s[k])
  }

  /** `s` holds no `;key=` that has a character after it. */
  ghost predicate NoInnerSeparator(s: string) {
    forall k :: OccursAt(s, k, KeySeparator) ==> k + |KeySeparator| == |s|
  }

  /** Whenever the reference semantics chooses a match, the parse reports exactly its two groups. */
  lemma ParseOfChosenMatch(s: string, start: nat, split: nat)
    requires ChosenMatch(s, start, split)
    ensures ParseCredital(s) == ParseResult(true, Some(Group1(s, start, split)), Some(Group2(s, split)))
  {
    var r := ParseCredital(s);
    assert Matches(s);
    var st: nat, sp: nat :| ChosenMatch(s, st, sp)
      && sp + |KeySeparator| <= |s|
      && r.clientId == Some(Group1(s, st, sp))
      && r.key == Some(Group2(s, sp));
    ChosenMatchUnique(s, st, sp, start, split);
  }

  /** Both groups of a successful parse are non-empty, because both are `.+`. */
  lemma ParsedPartsNonEmpty(credital: string)
    requires Matches(credital)
    ensures !IsNullOrEmpty(ParseCredital(credital).clientId)
    ensures !IsNullOrEmpty(ParseCredital(credital).key)
  {
    var r := ParseCredital(credital);
    var start: nat, split: nat :| ChosenMatch(credital, start, split)
      && split + |KeySeparator| <= |credital|
      && r.clientId == Some(Group1(credital, start, split))
      && r.key == Some(Group2(credital, split));
    assert Dot(credital[split + |KeySeparator|]);
  }

  /** On a string whose tail from `i` is single-line, the line ends at the end of the string. */
  lemma LineEndOfSingleLine(s: string, i: nat)
    requires i <= |s|
    requires forall k :: i <= k < |s| ==> Dot(s[k])
    ensures LineEnd(s, i) == |s|
  {
  }

  /** Inside an occurrence of `;key=` no second one can begin: only its first character is ';'. */
  lemma SeparatorHasOneSemicolon(s: string, b: int, j: int)
    requires OccursAt(s, b, KeySeparator)
    ensures b < j < b + |KeySeparator| ==> s[j] != ';'
  {
    if b < j < b + |KeySeparator| {
      assert s[j] == s[b..b + |KeySeparator|][j - b];
    }
  }

  /** A `;key=` past the boundary of a formatted credential string lies inside the key. */
  lemma SeparatorInFormatted(id: string, key: string, sp: int)
    ensures var s := FormatCredital(Some(id), Some(key));
      var b := |IdPrefix| + |id|;
      OccursAt(s, sp, KeySeparator) && sp > b ==> OccursAt(key, sp - b - |KeySeparator|, KeySeparator)
  {
    var s := FormatCredital(Some(id), Some(key));
    var b := |IdPrefix| + |id|;
    SeparatorHasOneSemicolon(s, b, sp);
    if OccursAt(s, sp, KeySeparator) && sp > b {
      assert s[sp] == s[sp..sp + |KeySeparator|][0];
      SeparatorInKeyPart(s, b + |KeySeparator|, key, sp);
    }
  }

  /** An occurrence in a suffix of `s` is an occurrence in `s` shifted by the suffix's start. */
  lemma SeparatorInKeyPart(s: string, c: nat, key: string, sp: int)
    requires c <= |s| && s[c..] == key
    requires OccursAt(s, sp, KeySeparator) && sp >= c
    ensures OccursAt(key, sp - c, KeySeparator)
  {
    var k := sp - c;
    assert key[k..k + |KeySeparator|] == s[c..][k..k + |KeySeparator|];
    assert s[c..][k..k + |KeySeparator|] == s[sp..sp + |KeySeparator|];
  }

  /** The formatted string's chosen match starts at 0 and splits at the boundary between id and key. */
  lemma FormatChosenMatch(id: string, key: string)
    requires id != [] && key != []
    requires SingleLine(id) && SingleLine(key)
    requires NoInnerSeparator(key)
    ensures ChosenMatch(FormatCredital(Some(id), Some(key)), 0, |IdPrefix| + |id|)
  {
    var s := FormatCredital(Some(id), Some(key));
    var b := |IdPrefix| + |id|;
    assert s[b + |KeySeparator|] == key[0];
    assert forall k :: |IdPrefix| <= k < b ==> s[k] == s[|IdPrefix|..b][k - |IdPrefix|];
    assert MatchAt(s, 0, b);
    forall sp | MatchAt(s, 0, sp) ensures sp <= b {
      SeparatorInFormatted(id, key, sp);
    }
  }

  /**
   * The getter's string parses back to the stored pair when both parts are
   * non-empty single-line strings and the key holds no further usable `;key=`.
   */
  lemma FormatParseRoundTrip(id: string, key: string)
    requires id != [] && key != []
    requires SingleLine(id) && SingleLine(key)
    requires NoInnerSeparator(key)
    ensures ParseCredital(FormatCredital(Some(id), Some(key))) == ParseResult(true, Some(id), Some(key))
  {
    var s := FormatCredital(Some(id), Some(key));
    var b := |IdPrefix| + |id|;
    FormatChosenMatch(id, key);
    ParseOfChosenMatch(s, 0, b);
    assert Group1(s, 0, b) == id;
    forall k | b + |KeySeparator| <= k < |s| ensures Dot(s[k]) {
      assert s[k] == s[b + |KeySeparator|..][k - b - |KeySeparator|];
    }
    LineEndOfSingleLine(s, b + |KeySeparator|);
    assert Group2(s, b) == key;
  }

  /** A usable `;key=` inside group 2 would extend group 1 to a longer match. */
  lemma SeparatorInGroup2(s: string, start: nat, split: nat, k: int)
    requires MatchAt(s, start, split)
    ensures var key := Group2(s, split);
      OccursAt(key, k, KeySeparator) && k + |KeySeparator| < |key|
      ==> MatchAt(s, start, split + |KeySeparator| + k)
  {
    var b := split + |KeySeparator|;
    var e := LineEnd(s, b);
    var key := Group2(s, split);
    if OccursAt(key, k, KeySeparator) && k + |KeySeparator| < |key| {
      var sp := b + k;
      assert key == s[b..e];
      SliceOfSlice(s, b, e, k, |KeySeparator|);
      assert OccursAt(s, sp, KeySeparator);
      assert s[b..e][k + |KeySeparator|] == s[sp + |KeySeparator|];
      SeparatorIsSingleLine(s, split);
      assert forall j :: start + |IdPrefix| <= j < split ==> Dot(s[j]);
      assert forall j :: b <= j < e ==> Dot(s[j]);
    }
  }

  /** A slice of a slice is the slice of the whole at the shifted bounds. */
  lemma SliceOfSlice(s: string, b: nat, e: nat, k: nat, n: nat)
    requires b <= e <= |s| && k + n <= e - b
    ensures s[b..e][k..k + n] == s[b + k..b + k + n]
  {
    var inner, outer := s[b..e][k..k + n], s[b + k..b + k + n];
    forall j | 0 <= j < n ensures inner[j] == outer[j] {
      assert inner[j] == s[b + k + j];
    }
  }

  /** The characters of `;key=` are all `.` characters. */
  lemma SeparatorIsSingleLine(s: string, split: int)
    requires OccursAt(s, split, KeySeparator)
    ensures forall j :: split <= j < split + |KeySeparator| ==> Dot(s[j])
  {
    forall j | split <= j < split + |KeySeparator| ensures Dot(s[j]) {
      assert s[j] == s[split..split + |KeySeparator|][j - split];
    }
  }

  /** Group 1 of a match is a non-empty single-line string. */
  lemma Group1Shape(s: string, start: nat, split: nat)
    requires MatchAt(s, start, split)
    ensures Group1(s, start, split) != [] && SingleLine(Group1(s, start, split))
  {
    var id := Group1(s, start, split);
    assert forall k :: 0 <= k < |id| ==> id[k] == s[start + |IdPrefix| + k];
  }

  /**
   * Group 2 of the chosen match is a non-empty single-line string holding no
   * `;key=` with a character after it.
   */
  lemma Group2Shape(s: string, start: nat, split: nat)
    requires ChosenMatch(s, start, split)
    ensures Group2(s, split) != [] && SingleLine(Group2(s, split)) && NoInnerSeparator(Group2(s, split))
  {
    var b := split + |KeySeparator|;
    var key := Group2(s, split);
    assert key[0] == s[b];
    assert forall k :: 0 <= k < |key| ==> key[k] == s[b + k];
    forall k | OccursAt(key, k, KeySeparator) ensures k + |KeySeparator| == |key| {
      SeparatorInGroup2(s, start, split, k);
    }
  }

  /**
   * Writing the getter's string back through the setter is a no-op: parsing
   * the formatted groups of any successful parse yields the same groups.
   */
  lemma ParseFormatParse(credital: string)
    requires Matches(credital)
    ensures var r := ParseCredital(credital);
      ParseCredital(FormatCredital(r.clientId, r.key)) == r
  {
    var r := ParseCredital(credital);
    var start: nat, split: nat :| ChosenMatch(credital, start, split) && split + |KeySeparator| <= |credital|;
    ParseOfChosenMatch(credital, start, split);
    Group1Shape(credital, start, split);
    Group2Shape(credital, start, split);
    FormatParseRoundTrip(Group1(credital, start, split), Group2(credital, split));
  }

  /** `"id=abc;key=xyz"` parses to ("abc", "xyz"). */
  lemma ParseExample()
    ensures ParseCredital("id=abc;key=xyz") == ParseResult(true, Some("abc"), Some("xyz"))
  {
    assert FormatCredital(Some("abc"), Some("xyz")) == "id=abc;key=xyz";
    FormatParseRoundTrip("abc", "xyz");
  }

  /** A string shorter than `id=` and `;key=` with one character for each group cannot match. */
  lemma TooShortNeverMatches(s: string)
    requires |s| < |IdPrefix| + |KeySeparator| + 2
    ensures !Matches(s)
  {
  }

  /** `"foo=bar"` does not parse. */
  lemma MalformedExample()
    ensures !ParseCredital("foo=bar").success
  {
    var s := "foo=bar";
    assert |s| < |IdPrefix| + |KeySeparator| + 2;
  }

  /** The string the getter produces for a provider whose id and key were never set does not parse. */
  lemma UnsetCreditalsDoNotParse()
    ensures !ParseCredital(FormatCredital(None, None)).success
  {
    var s := FormatCredital(None, None);
    assert s == "id=;key=";
    assert |s| < |IdPrefix| + |KeySeparator| + 2;
  }

  /**
   * A key that itself holds `;key=` followed by a character does not survive
   * the round trip: the greedy group 1 absorbs the first part of it.
   */
  lemma KeyHoldingSeparatorSplitsLate()
    ensures ParseCredital(FormatCredital(Some("a"), Some("b;key=c"))) == ParseResult(true, Some("a;key=b"), Some("c"))
  {
    assert FormatCredital(Some("a"), Some("b;key=c")) == FormatCredital(Some("a;key=b"), Some("c"));
    FormatParseRoundTrip("a;key=b", "c");
  }
}

=== FILE: geocoding.dfy ===
/**
 * The provider's geocoding operations: forward lookup of a keyword string
 * and reverse lookup of a coordinate, shaped from the geocoding service's
 * response. The service itself is an oracle from request to response.
 */
module Geocoding {
  import opened Common
  import opened GoogleMapWrapper

  /** What a geocoding request asks about: an address text or a coordinate. */
  datatype AddressQuery = Keywords(text: string) | Coordinates(location: LatLng)

  datatype GeocodingRequest = GeocodingRequest(address: AddressQuery, sensor: bool)

  datatype GeocodingResponse = GeocodingResponse(status: ServiceResponseStatus, results: seq<GeocodeResult>)

  /** The request every forward lookup issues: the keywords, without sensor. */
  function KeywordRequest(keywords: string): (r: GeocodingRequest)
    ensures r.address == Keywords(keywords) && !r.sensor
  {
    GeocodingRequest(Keywords(keywords), false)
  }

  /** The request every reverse lookup issues: the coordinate, without sensor. */
  function ReverseRequest(location: PointLatLng): (r: GeocodingRequest)
    ensures r.address.Coordinates? && ToPointLatLng(r.address.location) == location
    ensures !r.sensor
  {
    GeocodingRequest(Coordinates(ToLatLng(location)), false)
  }

  /** The outcome of `GetPoint`: the nullable point and the two out parameters. */
  datatype PointLookup = PointLookup(point: Option<PointLatLng>, status: GeoCoderStatusCode, accuracy: real)

  /**
   * `GetPoint(keywords, out status, out accuracy)`: the mapped status, and
   * the first result's location and accuracy, or null and 0 without results.
   */
  function GetPoint(keywords: string, service: GeocodingRequest -> GeocodingResponse): (r: PointLookup)
    ensures var response := service(KeywordRequest(keywords));
      && r.status == ToGeoCoderStatusCode(response.status)
      && (r.point.None? <==> |response.results| == 0)
      && (|response.results| == 0 ==> r.accuracy == 0.0)
      && (|response.results| > 0 ==>
            && r.point.value.lat == response.results[0].geometry.location.latitude
            && r.point.value.lng == response.results[0].geometry.location.longitude
            && r.accuracy == ToAccuracyValue(response.results[0].geometry.locationType))
  {
    var response := service(KeywordRequest(keywords));
    var status := ToGeoCoderStatusCode(response.status);
    if |response.results| > 0 then
      var geometry := response.results[0].geometry;
      PointLookup(Some(ToPointLatLng(geometry.location)), status, ToAccuracyValue(geometry.locationType))
    else
      PointLookup(None, status, 0.0)
  }

  /** `GetPoint(keywords, out status)`: the same lookup with the accuracy dropped. */
  function GetPointAndStatus(keywords: string, service: GeocodingRequest -> GeocodingResponse): (r: (Option<PointLatLng>, GeoCoderStatusCode))
    ensures var full := GetPoint(keywords, service);
      r.0 == full.point && r.1 == full.status
  {
    var full := GetPoint(keywords, service);
    (full.point, full.status)
  }

  /** The outcome of `GetPoints`: the returned status and the out list. */
  datatype PointsLookup = PointsLookup(status: GeoCoderStatusCode, points: seq<PointLatLng>)

  /** `GetPoints`: one point per result, in result order, and the mapped status. */
  function GetPoints(keywords: string, service: GeocodingRequest -> GeocodingResponse): (r: PointsLookup)
    ensures var response := service(KeywordRequest(keywords));
      && r.status == ToGeoCoderStatusCode(response.status)
      && |r.points| == |response.results|
      && forall i :: 0 <= i < |r.points| ==> r.points[i] == ToPointLatLng(response.results[i].geometry.location)
  {
    var response := service(KeywordRequest(keywords));
    PointsLookup(ToGeoCoderStatusCode(response.status),
      seq(|response.results|, i requires 0 <= i < |response.results| => ToPointLatLng(response.results[i].geometry.location)))
  }

  /** The single-point lookup agrees with the list lookup: null when the list is empty, else its head. */
  lemma GetPointIsHeadOfGetPoints(keywords: string, service: GeocodingRequest -> GeocodingResponse)
    ensures var single := GetPoint(keywords, service);
      var all := GetPoints(keywords, service);
      && single.status == all.status
      && (single.point.None? <==> all.points == [])
      && (single.point.Some? ==> single.point.value == all.points[0])
  {
  }

  /** The outcome of `GetPlacemarks`: the returned status and the out list. */
  datatype PlacemarksLookup = PlacemarksLookup(status: GeoCoderStatusCode, placemarks: seq<Placemark>)

  /** `GetPlacemarks`: one placemark per result, in result order, and the mapped status. */
  function GetPlacemarks(location: PointLatLng, service: GeocodingRequest -> GeocodingResponse): (r: PlacemarksLookup)
    ensures var response := service(ReverseRequest(location));
      && r.status == ToGeoCoderStatusCode(response.status)
      && |r.placemarks| == |response.results|
      && forall i :: 0 <= i < |r.placemarks| ==> r.placemarks[i] == ToPlacemark(response.results[i])
  {
    var response := service(ReverseRequest(location));
    PlacemarksLookup(ToGeoCoderStatusCode(response.status),
      seq(|response.results|, i requires 0 <= i < |response.results| => ToPlacemark(response.results[i])))
  }

  /** The outcome of `GetPlacemark`: the nullable placemark and the out status. */
  datatype PlacemarkLookup = PlacemarkLookup(placemark: Option<Placemark>, status: GeoCoderStatusCode)

  /** `GetPlacemark`: the first result's placemark, or null without results. */
  function GetPlacemark(location: PointLatLng, service: GeocodingRequest -> GeocodingResponse): (r: PlacemarkLookup)
    ensures var response := service(ReverseRequest(location));
      && r.status == ToGeoCoderStatusCode(response.status)
      && (r.placemark.None? <==> |response.results| == 0)
      && (r.placemark.Some? ==> r.placemark.value == ToPlacemark(response.results[0]))
  {
    var response := service(ReverseRequest(location));
    var status := ToGeoCoderStatusCode(response.status);
    if |response.results| > 0 then PlacemarkLookup(Some(ToPlacemark(response.results[0])), status)
    else PlacemarkLookup(None, status)
  }

  /** The single-placemark lookup agrees with the list lookup: null when the list is empty, else its head. */
  lemma GetPlacemarkIsHeadOfGetPlacemarks(location: PointLatLng, service: GeocodingRequest -> GeocodingResponse)
    ensures var single := GetPlacemark(location, service);
      var all := GetPlacemarks(location, service);
      && single.status == all.status
      && (single.placemark.None? <==> all.placemarks == [])
      && (single.placemark.Some? ==> single.placemark.value == all.placemarks[0])
  {
  }
}

=== FILE: google_map_wrapper.dfy ===
/**
 * Conversions between the Google Maps client library's values and the map
 * control's values: coordinates, service status codes, location-type
 * accuracy, and placemarks assembled from address components.
 */
module GoogleMapWrapper {
  import opened Common

  /** A coordinate of the Google Maps client library. */
  datatype LatLng = LatLng(latitude: real, longitude: real)

  /** A coordinate of the map control. */
  datatype PointLatLng = PointLatLng(lat: real, lng: real)

  /**
   * The status of a Google web-service response. `Unrecognized` stands for
   * every value of the enumeration that the mapping has no case for.
   */
  datatype ServiceResponseStatus =
    | Ok
    | InvalidRequest
    | OverQueryLimit
    | RequestDenied
    | ZeroResults
    | Unknown
    | Unrecognized(code: int)

  /** The members of the map control's geocoder status that the mapping produces. */
  datatype GeoCoderStatusCode =
    | Unknow
    | G_GEO_SUCCESS
    | G_GEO_BAD_REQUEST
    | G_GEO_UNKNOWN_ADDRESS
    | G_GEO_TOO_MANY_QUERIES
    | ExceptionInCode

  /** How precisely a geocoded location is known; `UnrecognizedLocation` stands for any other value. */
  datatype LocationType =
    | UnknownLocation
    | Approximate
    | GeometricCenter
    | RangeInterpolated
    | Rooftop
    | UnrecognizedLocation(code: int)

  /** Address component types; `OtherAddressType` stands for the many types no placemark field uses. */
  datatype AddressType = StreetAddress | StreetNumber | PostalCode | Country | OtherAddressType(name: string)

  datatype AddressComponent = AddressComponent(longName: string, shortName: string, types: seq<AddressType>)

  datatype Geometry = Geometry(location: LatLng, locationType: LocationType)

  /** One result of a geocoding response. */
  datatype GeocodeResult = GeocodeResult(formattedAddress: string, addressComponents: seq<AddressComponent>, geometry: Geometry)

  /** The map control's placemark; every field but the address may be null. */
  datatype Placemark = Placemark(
    address: string,
    houseNo: Option<string>,
    countryName: Option<string>,
    postalCodeNumber: Option<string>,
    districtName: Option<string>,
    thoroughfareName: Option<string>)

  /** `ToPointLatLng`: both ordinates carried over unchanged. */
  function ToPointLatLng(coord: LatLng): (r: PointLatLng)
    ensures r.lat == coord.latitude && r.lng == coord.longitude
  {
    PointLatLng(coord.latitude, coord.longitude)
  }

  /** The reverse conversion, `new LatLng(p.Lat, p.Lng)`, used for requests. */
  function ToLatLng(p: PointLatLng): (r: LatLng)
    ensures r.latitude == p.lat && r.longitude == p.lng
  {
    LatLng(p.lat, p.lng)
  }

  /** The two coordinate conversions are inverse to each other. */
  lemma CoordinateConversionsInverse(coord: LatLng, p: PointLatLng)
    ensures ToLatLng(ToPointLatLng(coord)) == coord
    ensures ToPointLatLng(ToLatLng(p)) == p
  {
  }

  /**
   * `ToGeoCoderStatusCode`, stated through the preimage of every code: the
   * mapping is total, and only the over-limit code has two preimages.
   */
  function ToGeoCoderStatusCode(status: ServiceResponseStatus): (r: GeoCoderStatusCode)
    ensures r == G_GEO_SUCCESS <==> status == Ok
    ensures r == G_GEO_BAD_REQUEST <==> status == InvalidRequest
    ensures r == G_GEO_TOO_MANY_QUERIES <==> status == OverQueryLimit || status == RequestDenied
    ensures r == G_GEO_UNKNOWN_ADDRESS <==> status == ZeroResults
    ensures r == Unknow <==> status == Unknown
    ensures r == ExceptionInCode <==> status.Unrecognized?
  {
    match status
    case Ok => G_GEO_SUCCESS
    case InvalidRequest => G_GEO_BAD_REQUEST
    case OverQueryLimit => G_GEO_TOO_MANY_QUERIES
    case RequestDenied => G_GEO_TOO_MANY_QUERIES
    case ZeroResults => G_GEO_UNKNOWN_ADDRESS
    case Unknown => Unknow
    case Unrecognized(_) => ExceptionInCode
  }

  /** Two distinct statuses collapse onto one code, so the status cannot be recovered from it. */
  lemma StatusMappingNotInjective()
    ensures OverQueryLimit != RequestDenied
    ensures ToGeoCoderStatusCode(OverQueryLimit) == ToGeoCoderStatusCode(RequestDenied)
  {
  }

  /** Two statuses map to the same code only when equal or both in the over-limit pair, or both unrecognized. */
  lemma StatusMappingCollisions(a: ServiceResponseStatus, b: ServiceResponseStatus)
    requires ToGeoCoderStatusCode(a) == ToGeoCoderStatusCode(b)
    ensures a == b || (a.Unrecognized? && b.Unrecognized?)
      || ((a == OverQueryLimit || a == RequestDenied) && (b == OverQueryLimit || b == RequestDenied))
  {
  }

  /** The rank of a recognized location type, from least to most precise. */
  function Precision(t: LocationType): nat
    requires !t.UnrecognizedLocation?
  {
    match t
    case UnknownLocation => 0
    case Approximate => 1
    case GeometricCenter => 2
    case RangeInterpolated => 3
    case Rooftop => 4
  }

  /**
   * `ToAccuracyValue`: a value in [0, 1] (the single-precision constants are
   * modelled as exact decimals); 0 for the unknown type and for any
   * unrecognized one, 1 exactly for a rooftop location.
   */
  function ToAccuracyValue(t: LocationType): (r: real)
    ensures 0.0 <= r <= 1.0
    ensures r == 0.0 <==> t == UnknownLocation || t.UnrecognizedLocation?
    ensures r == 1.0 <==> t == Rooftop
  {
    match t
    case UnknownLocation => 0.0
    case Approximate => 0.2
    case GeometricCenter => 0.5
    case RangeInterpolated => 0.8
    case Rooftop => 1.0
    case UnrecognizedLocation(_) => 0.0
  }

  /** Accuracy grows strictly with precision among the recognized location types. */
  lemma AccuracyStrictlyIncreasing(a: LocationType, b: LocationType)
    requires !a.UnrecognizedLocation? && !b.UnrecognizedLocation?
    ensures Precision(a) < Precision(b) <==> ToAccuracyValue(a) < ToAccuracyValue(b)
  {
  }

  /** Component `i` is the first one whose types contain `t`. */
  ghost predicate FirstWithType(components: seq<AddressComponent>, t: AddressType, i: int) {
    && 0 <= i < |components|
    && t in components[i].types
    && forall j :: 0 <= j < i ==> t !in components[j].types
  }

  /**
   * `FindAddressPart`: the long name of the first component whose types
   * contain `t`, or null when none does.
   */
  function FindAddressPart(components: seq<AddressComponent>, t: AddressType): (r: Option<string>)
    ensures r.None? <==> forall i :: 0 <= i < |components| ==> t !in components[i].types
    ensures r.Some? ==> exists i :: FirstWithType(components, t, i) && r.value == components[i].longName
  {
    if |components| == 0 then None
    else if t in components[0].types then
      assert FirstWithType(components, t, 0);
      Some(components[0].longName)
    else
      var rest := FindAddressPart(components[1..], t);
      assert rest.Some? ==> exists i :: FirstWithType(components, t, i) && rest.value == components[i].longName by {
        if rest.Some? {
          var i :| FirstWithType(components[1..], t, i) && rest.value == components[1..][i].longName;
          assert FirstWithType(components, t, i + 1);
        }
      }
      assert rest.None? ==> forall i :: 0 <= i < |components| ==> t !in components[i].types by {
        if rest.None? {
          forall i | 0 <= i < |components| ensures t !in components[i].types {
            if i > 0 {
              assert components[i] == components[1..][i - 1];
            }
          }
        }
      }
      rest
  }

  /**
   * `ToPlacemark`: the address is the formatted address, every other field
   * is the first matching component's long name; district and thoroughfare
   * both look up the street-address type, so they always agree.
   */
  function ToPlacemark(result: GeocodeResult): (r: Placemark)
    ensures r.address == result.formattedAddress
    ensures r.districtName == r.thoroughfareName
    ensures r.houseNo == FindAddressPart(result.addressComponents, StreetNumber)
    ensures r.countryName == FindAddressPart(result.addressComponents, Country)
    ensures r.postalCodeNumber == FindAddressPart(result.addressComponents, PostalCode)
    ensures r.thoroughfareName == FindAddressPart(result.addressComponents, StreetAddress)
  {
    var cs := result.addressComponents;
    Placemark(
      result.formattedAddress,
      FindAddressPart(cs, StreetNumber),
      FindAddressPart(cs, Country),
      FindAddressPart(cs, PostalCode),
      FindAddressPart(cs, StreetAddress),
      FindAddressPart(cs, StreetAddress))
  }
}

=== FILE: providers_business.dfy ===
/**
 * The static registry of the four business provider singletons and the
 * bulk setter `GoogleCreditalString`, which assigns one credential string
 * to each provider in registry order. A `FormatException` thrown for one
 * provider ends the loop; the outcome then carries the state at the throw.
 */
module ProvidersBusiness {
  import opened Common
  import opened CredentialCodec
  import opened BusinessProvider

  /** The process-wide state the bulk setter touches: the providers in registry order and the signing instance. */
  datatype Registry = Registry(providers: seq<Provider>, signing: Option<Signer>)

  /**
   * `AllGoogleBusinessProviders` as the static initializers leave it: the
   * roadmap, satellite, hybrid and terrain `Instance` singletons, one per
   * map type, none with credentials yet.
   */
  function AllGoogleBusinessProviders(): (r: seq<Provider>)
    ensures |r| == 4
    ensures r[0].mapType == Roadmap && r[1].mapType == Satellite && r[2].mapType == Hybrid && r[3].mapType == Terrain
    ensures forall i, j :: 0 <= i < j < |r| ==> r[i].mapType != r[j].mapType
    ensures forall i :: 0 <= i < |r| ==> r[i] == NewProvider(r[i].mapType)
  {
    [NewProvider(Roadmap), NewProvider(Satellite), NewProvider(Hybrid), NewProvider(Terrain)]
  }

  /** The outcome of the bulk setter: it completes, or a provider's setter throws. */
  datatype BulkOutcome = Completed(registry: Registry) | Threw(message: string, registry: Registry)

  /**
   * The `foreach` loop of the bulk setter, from provider `i` on: the
   * providers before `i` are left as they are, no provider changes its map
   * type or branding switch, and a throw carries the setter's format error.
   */
  function AssignFrom(providers: seq<Provider>, i: nat, signing: Option<Signer>, value: Option<string>): (r: BulkOutcome)
    requires i <= |providers|
    ensures |r.registry.providers| == |providers|
    ensures forall k :: 0 <= k < i ==> r.registry.providers[k] == providers[k]
    ensures forall k :: 0 <= k < |providers| ==>
      r.registry.providers[k].mapType == providers[k].mapType
      && r.registry.providers[k].removeBranding == providers[k].removeBranding
    ensures r.Threw? ==> value.Some? && r.message == FormatErrorMessage + value.value
    decreases |providers| - i
  {
    if i == |providers| then Completed(Registry(providers, signing))
    else
      match SetCreditalString(providers[i], signing, value)
      case FormatException(message) => Threw(message, Registry(providers, signing))
      case Assigned(c) => AssignFrom(providers[i := c.provider], i + 1, c.signing, value)
  }

  /**
   * The `GoogleCreditalString` setter. A null value changes no provider and
   * not the signer. A malformed value throws the format error at the first
   * provider, before anything changed. A valid value stores the same parsed
   * pair in every provider, in registry order, changes nothing else about
   * them, and installs the parsed signer (when there is a provider at all).
   */
  function SetGoogleCreditalString(registry: Registry, value: Option<string>): (r: BulkOutcome)
    ensures value.None? ==> r == Completed(registry)
    ensures value.Some? && !Matches(value.value) && |registry.providers| > 0 ==>
      r == Threw(FormatErrorMessage + value.value, registry)
    ensures value.Some? && Matches(value.value) ==>
      && r.Completed?
      && r.registry.providers == WithParsedCredentials(registry.providers, ParseCredital(value.value))
      && (|registry.providers| > 0 ==> r.registry.signing == Some(ParsedSigner(value.value)))
  {
    var r := AssignFrom(registry.providers, 0, registry.signing, value);
    assert value.None? ==> r == Completed(registry) by {
      if value.None? {
        AssignNullFrom(registry.providers, 0, registry.signing);
      }
    }
    assert value.Some? && Matches(value.value) ==>
      r == Completed(Registry(WithParsedCredentials(registry.providers, ParseCredital(value.value)),
                              if |registry.providers| > 0 then Some(ParsedSigner(value.value)) else registry.signing)) by {
      if value.Some? && Matches(value.value) {
        AssignValidFrom(registry.providers, 0, registry.signing, value.value);
        assert registry.providers[..0] + WithParsedCredentials(registry.providers[0..], ParseCredital(value.value))
            == WithParsedCredentials(registry.providers, ParseCredital(value.value));
      }
    }
    r
  }

  /** Every provider with the parsed credentials stored. */
  function WithParsedCredentials(providers: seq<Provider>, parsed: ParseResult): (r: seq<Provider>)
    ensures |r| == |providers|
    ensures forall k :: 0 <= k < |r| ==> r[k] == providers[k].(clientId := parsed.clientId, privateKey := parsed.key)
  {
    seq(|providers|, k requires 0 <= k < |providers| => providers[k].(clientId := parsed.clientId, privateKey := parsed.key))
  }

  /** The signer a successful parse installs. */
  function ParsedSigner(value: string): Signer
    requires Matches(value)
  {
    ParsedPartsNonEmpty(value);
    var parsed := ParseCredital(value);
    Signer(parsed.clientId.value, parsed.key.value)
  }

  lemma {:induction false} AssignNullFrom(providers: seq<Provider>, i: nat, signing: Option<Signer>)
    requires i <= |providers|
    ensures AssignFrom(providers, i, signing, None) == Completed(Registry(providers, signing))
    decreases |providers| - i
  {
    if i < |providers| {
      assert providers[i := providers[i]] == providers;
      AssignNullFrom(providers, i + 1, signing);
    }
  }

  lemma {:induction false} AssignValidFrom(providers: seq<Provider>, i: nat, signing: Option<Signer>, value: string)
    requires i <= |providers|
    requires Matches(value)
    ensures AssignFrom(providers, i, signing, Some(value)) ==
      Completed(Registry(providers[..i] + WithParsedCredentials(providers[i..], ParseCredital(value)),
                         if i < |providers| then Some(ParsedSigner(value)) else signing))
    decreases |providers| - i
  {
    var parsed := ParseCredital(value);
    if i == |providers| {
      assert providers[..i] + WithParsedCredentials(providers[i..], parsed) == providers;
    } else {
      var c := SetCreditalString(providers[i], signing, Some(value)).configured;
      AssignValidFrom(providers[i := c.provider], i + 1, c.signing, value);
      StoreParsedAt(providers, i, parsed);
    }
  }

  /** Storing the parsed pair in provider `i` moves the boundary of `WithParsedCredentials` one place on. */
  lemma StoreParsedAt(providers: seq<Provider>, i: nat, parsed: ParseResult)
    requires i < |providers|
    ensures var next := providers[i := providers[i].(clientId := parsed.clientId, privateKey := parsed.key)];
      next[..i + 1] + WithParsedCredentials(next[i + 1..], parsed)
        == providers[..i] + WithParsedCredentials(providers[i..], parsed)
  {
    var x := providers[i].(clientId := parsed.clientId, privateKey := parsed.key);
    var next := providers[i := x];
    assert next[i + 1..] == providers[i + 1..];
    assert next[..i + 1] == providers[..i] + [x];
    assert WithParsedCredentials(providers[i..], parsed) == [x] + WithParsedCredentials(providers[i + 1..], parsed);
  }

  /**
   * For the real registry: after a valid bulk value all four singletons keep
   * their map types and report the same credential string, which parses as
   * the value did and, assigned back to any of them, changes nothing.
   */
  lemma BulkValueSharedByAllFour(signing: Option<Signer>, value: string)
    requires Matches(value)
    ensures var r := SetGoogleCreditalString(Registry(AllGoogleBusinessProviders(), signing), Some(value));
      && r.Completed?
      && |r.registry.providers| == 4
      && (forall k :: 0 <= k < 4 ==> r.registry.providers[k].mapType == AllGoogleBusinessProviders()[k].mapType)
      && (forall k :: 0 <= k < 4 ==> CreditalString(r.registry.providers[k]) == CreditalString(r.registry.providers[0]))
      && ParseCredital(CreditalString(r.registry.providers[0])) == ParseCredital(value)
      && (forall k :: 0 <= k < 4 ==>
            var p := r.registry.providers[k];
            SetCreditalString(p, r.registry.signing, Some(CreditalString(p))) == Assigned(Configured(p, r.registry.signing)))
  {
    var registry := Registry(AllGoogleBusinessProviders(), signing);
    var r := SetGoogleCreditalString(registry, Some(value));
    ParseFormatParse(value);
    forall k | 0 <= k < 4
      ensures var p := r.registry.providers[k];
        SetCreditalString(p, r.registry.signing, Some(CreditalString(p))) == Assigned(Configured(p, r.registry.signing))
    {
      SetGetSetIdempotent(registry.providers[k], signing, value);
    }
  }
}

=== FILE: routing.dfy ===
/**
 * The provider's routing operation: a directions request between two
 * points, and the high-quality polyline of the first route, assembled from
 * the decoded polylines of its steps. The directions service and the
 * polyline decoder are oracles.
 */
module Routing {
  import opened Common
  import opened GoogleMapWrapper

  datatype TravelMode = Driving | Walking

  datatype DirectionRequest = DirectionRequest(origin: LatLng, destination: LatLng, sensor: bool, mode: TravelMode)

  /** A step of a leg; its polyline is still encoded. */
  datatype Step = Step(polyline: string)

  datatype Leg = Leg(steps: seq<Step>)

  datatype DirectionRoute = DirectionRoute(summary: string, legs: seq<Leg>, overviewPolyline: string)

  datatype DirectionResponse = DirectionResponse(status: ServiceResponseStatus, routes: seq<DirectionRoute>)

  /** The map control's route: its points and its name. */
  datatype MapRoute = MapRoute(points: seq<PointLatLng>, name: string)

  // ---------------------------------------------------------------------
  // Reference definition of the high-quality polyline
  // ---------------------------------------------------------------------

  /** The concatenation of a sequence of sequences, in order. */
  function Concat<T>(parts: seq<seq<T>>): seq<T>
    decreases |parts|
  {
    if |parts| == 0 then [] else Concat(parts[..|parts| - 1]) + parts[|parts| - 1]
  }

  /** The sum of the lengths of the parts. */
  function TotalLength<T>(parts: seq<seq<T>>): nat
    decreases |parts|
  {
    if |parts| == 0 then 0 else TotalLength(parts[..|parts| - 1]) + |parts[|parts| - 1]|
  }

  /** The decoded polyline of every step of a leg, in step order. */
  function DecodedSteps(steps: seq<Step>, decode: string -> seq<LatLng>): (r: seq<seq<LatLng>>)
    ensures |r| == |steps|
    ensures forall k :: 0 <= k < |steps| ==> r[k] == decode(steps[k].polyline)
  {
    seq(|steps|, k requires 0 <= k < |steps| => decode(steps[k].polyline))
  }

  /** The decoded polyline of every step of a route, legs in order and steps in order within each leg. */
  function StepPolylines(legs: seq<Leg>, decode: string -> seq<LatLng>): seq<seq<LatLng>>
    decreases |legs|
  {
    if |legs| == 0 then []
    else StepPolylines(legs[..|legs| - 1], decode) + DecodedSteps(legs[|legs| - 1].steps, decode)
  }

  lemma {:induction false} ConcatAppend<T>(a: seq<seq<T>>, b: seq<seq<T>>)
    ensures Concat(a + b) == Concat(a) + Concat(b)
    decreases |b|
  {
    if |b| == 0 {
      assert a + b == a;
    } else {
      var b' := b[..|b| - 1];
      assert (a + b)[..|a + b| - 1] == a + b';
      ConcatAppend(a, b');
    }
  }

  /** The concatenation is as long as its parts together. */
  lemma {:induction false} ConcatLength<T>(parts: seq<seq<T>>)
    ensures |Concat(parts)| == TotalLength(parts)
    decreases |parts|
  {
    if |parts| > 0 {
      ConcatLength(parts[..|parts| - 1]);
    }
  }

  /**
   * The concatenation preserves order: part `k` sits, unchanged, right after
   * the parts before it.
   */
  lemma {:induction false} ConcatPlacesPart<T>(parts: seq<seq<T>>, k: int)
    requires 0 <= k < |parts|
    ensures TotalLength(parts[..k]) + |parts[k]| <= |Concat(parts)|
    ensures Concat(parts)[TotalLength(parts[..k])..TotalLength(parts[..k]) + |parts[k]|] == parts[k]
    decreases |parts|
  {
    var init := parts[..|parts| - 1];
    ConcatLength(init);
    if k == |parts| - 1 {
      assert parts[..k] == init;
    } else {
      assert init[..k] == parts[..k];
      ConcatPlacesPart(init, k);
      assert Concat(parts) == Concat(init) + parts[|parts| - 1];
    }
  }

  // ---------------------------------------------------------------------
  // The operations
  // ---------------------------------------------------------------------

  /** Appending one more step's decoded polyline extends the concatenation of a leg's first steps. */
  lemma DecodedStepsSnoc(steps: seq<Step>, j: int, decode: string -> seq<LatLng>)
    requires 0 <= j < |steps|
    ensures Concat(DecodedSteps(steps[..j + 1], decode)) == Concat(DecodedSteps(steps[..j], decode)) + decode(steps[j].polyline)
  {
    var longer := DecodedSteps(steps[..j + 1], decode);
    assert longer[..j] == DecodedSteps(steps[..j], decode);
  }

  /** Appending one more leg's step polylines extends the concatenation of the first legs. */
  lemma StepPolylinesSnoc(legs: seq<Leg>, i: int, decode: string -> seq<LatLng>)
    requires 0 <= i < |legs|
    ensures Concat(StepPolylines(legs[..i + 1], decode))
         == Concat(StepPolylines(legs[..i], decode)) + Concat(DecodedSteps(legs[i].steps, decode))
  {
    assert legs[..i + 1][..i] == legs[..i];
    ConcatAppend(StepPolylines(legs[..i], decode), DecodedSteps(legs[i].steps, decode));
  }

  /**
   * `AssembleHQPolyline`: the decoded polylines of all steps, appended leg
   * by leg and step by step.
   */
  method AssembleHQPolyline(route: DirectionRoute, decode: string -> seq<LatLng>) returns (hdRoute: seq<LatLng>)
    ensures hdRoute == Concat(StepPolylines(route.legs, decode))
    ensures |hdRoute| == TotalLength(StepPolylines(route.legs, decode))
  {
    hdRoute := [];
    var i := 0;
    while i < |route.legs|
      invariant 0 <= i <= |route.legs|
      invariant hdRoute == Concat(StepPolylines(route.legs[..i], decode))
    {
      hdRoute := AppendLegSteps(hdRoute, route.legs[i], decode);
      StepPolylinesSnoc(route.legs, i, decode);
      i := i + 1;
    }
    assert route.legs[..i] == route.legs;
    ConcatLength(StepPolylines(route.legs, decode));
  }

  /** The inner loop of `AssembleHQPolyline`: appends the decoded polylines of one leg's steps, in order. */
  method AppendLegSteps(hdRoute: seq<LatLng>, leg: Leg, decode: string -> seq<LatLng>) returns (r: seq<LatLng>)
    ensures r == hdRoute + Concat(DecodedSteps(leg.steps, decode))
  {
    r := hdRoute;
    var j := 0;
    while j < |leg.steps|
      invariant 0 <= j <= |leg.steps|
      invariant r == hdRoute + Concat(DecodedSteps(leg.steps[..j], decode))
    {
      DecodedStepsSnoc(leg.steps, j, decode);
      r := r + decode(leg.steps[j].polyline);
      j := j + 1;
    }
    assert leg.steps[..j] == leg.steps;
  }

  /** The request `GetRoute` issues: the two points, without sensor, walking or driving. */
  function RouteRequest(start: PointLatLng, end: PointLatLng, walkingMode: bool): (r: DirectionRequest)
    ensures ToPointLatLng(r.origin) == start && ToPointLatLng(r.destination) == end
    ensures !r.sensor && (r.mode == Walking <==> walkingMode)
  {
    DirectionRequest(ToLatLng(start), ToLatLng(end), false, if walkingMode then Walking else Driving)
  }

  /**
   * `GetRoute`: a route exactly when the service answers `Ok` with at least
   * one route; it is the first route's high-quality polyline, point for
   * point, named by the route's summary. `avoidHighways` and `zoom` are
   * accepted and ignored.
   */
  method GetRoute(start: PointLatLng, end: PointLatLng, avoidHighways: bool, walkingMode: bool, zoom: int,
                  service: DirectionRequest -> DirectionResponse, decode: string -> seq<LatLng>)
    returns (route: Option<MapRoute>)
    ensures var response := service(RouteRequest(start, end, walkingMode));
      && (route.Some? <==> response.status == Ok && |response.routes| > 0)
      && (route.Some? ==>
            var hq := Concat(StepPolylines(response.routes[0].legs, decode));
            && route.value.name == response.routes[0].summary
            && |route.value.points| == |hq|
            && forall i :: 0 <= i < |hq| ==> route.value.points[i] == ToPointLatLng(hq[i]))
  {
    route := None;
    var response := service(RouteRequest(start, end, walkingMode));
    if response.status == Ok {
      if |response.routes| > 0 {
        var directionsRoute := response.routes[0];
        var pathPoints := AssembleHQPolyline(directionsRoute, decode);
        var points := seq(|pathPoints|, i requires 0 <= i < |pathPoints| => PointLatLng(pathPoints[i].latitude, pathPoints[i].longitude));
        route := Some(MapRoute(points, directionsRoute.summary));
      }
    }
  }
}

=== FILE: tile_access.dfy ===
/**
 * Tile access through Google Static Maps: the dispatch in `GetTileImage`,
 * the sized static-map fetch with its WebException guard, and branding
 * removal, which fetches a tile 25 pixels taller at the top and at the
 * bottom and crops the 256x256 middle out of it.
 *
 * An image is a sequence of pixel rows, top row first. The tile-centre
 * coordinate, the URL built from the request and the HTTP transfer are
 * outside the model: the fetch is an oracle from the request to what the
 * transfer yields.
 */
module TileAccess {
  import opened Common
  import opened BusinessProvider

  /** A tile position in the tile grid of one zoom level. */
  datatype GPoint = GPoint(x: int, y: int)

  datatype Size = Size(width: int, height: int)

  datatype Rectangle = Rectangle(x: int, y: int, width: int, height: int)

  /** A 32-bit ARGB pixel. */
  newtype Argb = v: int | 0 <= v < 0x1_0000_0000

  /** The colour of every pixel of a freshly created bitmap. */
  const Transparent: Argb := 0

  /** Pixel rows, top row first. */
  type Image = seq<seq<Argb>>

  const DefaultTileSize: Size := Size(256, 256)

  /** Height of the band at the top and at the bottom of a static map that carries the branding. */
  const BrandingHeight: int := 25

  /**
   * A static-map request: the tile whose centre is requested, the zoom, the
   * map type, the image size, the sensor flag, and the signer whose
   * signature is appended to the URL (none when no signing instance is
   * configured).
   */
  datatype StaticMapRequest = StaticMapRequest(pos: GPoint, zoom: int, mapType: MapType, size: Size, sensor: bool, signedBy: Option<Signer>)

  /** What loading the image URL yields: an image, null, or a `WebException`. */
  datatype TileFetch = Fetched(image: Image) | NullImage | WebError(message: string)

  /** The image is a raster of exactly `width` x `height` pixels. */
  predicate IsRaster(img: Image, width: int, height: int) {
    |img| == height && forall i :: 0 <= i < |img| ==> |img[i]| == width
  }

  /** The request the sized tile fetch issues for provider `p`. */
  function TileRequest(p: Provider, signing: Option<Signer>, pos: GPoint, zoom: int, size: Size): (r: StaticMapRequest)
    ensures r.mapType == p.mapType && r.size == size && r.zoom == zoom && r.pos == pos
    ensures !r.sensor && r.signedBy == signing
  {
    StaticMapRequest(pos, zoom, p.mapType, size, false, signing)
  }

  /**
   * The private `GetTileImage(pos, zoom, tileSize)`: an image exactly when the
   * transfer yields one; a null image and a `WebException` both become no image.
   */
  function GetSizedTileImage(p: Provider, signing: Option<Signer>, pos: GPoint, zoom: int, size: Size,
                             fetch: StaticMapRequest -> TileFetch): (r: Option<Image>)
    ensures r.Some? <==> fetch(TileRequest(p, signing, pos, zoom, size)).Fetched?
    ensures r.Some? ==> r.value == fetch(TileRequest(p, signing, pos, zoom, size)).image
  {
    match fetch(TileRequest(p, signing, pos, zoom, size))
    case Fetched(img) => Some(img)
    case NullImage => None
    case WebError(_) => None
  }

  /** The pixel a draw reads from `img`: transparent outside the image. */
  function PixelAt(img: Image, row: int, col: int): Argb {
    if 0 <= row < |img| && 0 <= col < |img[row]| then img[row][col] else Transparent
  }

  /**
   * `CropImage`: a new bitmap of the section's size onto which the section
   * of the source is drawn at (0, 0); parts of the section outside the source
   * stay transparent.
   */
  function CropImage(source: Image, section: Rectangle): (r: Image)
    requires section.width > 0 && section.height > 0
    ensures IsRaster(r, section.width, section.height)
    ensures forall i, j :: 0 <= i < section.height && 0 <= j < section.width ==>
      r[i][j] == PixelAt(source, section.y + i, section.x + j)
  {
    seq(section.height, i requires 0 <= i < section.height =>
      seq(section.width, j requires 0 <= j < section.width => PixelAt(source, section.y + i, section.x + j)))
  }

  /** A section lying inside a raster crops to the corresponding slices of its rows. */
  lemma CropInsideRaster(source: Image, width: int, height: int, section: Rectangle)
    requires IsRaster(source, width, height)
    requires section.width > 0 && section.height > 0
    requires 0 <= section.x && section.x + section.width <= width
    requires 0 <= section.y && section.y + section.height <= height
    ensures |CropImage(source, section)| == section.height
    ensures forall i :: 0 <= i < section.height ==>
      CropImage(source, section)[i] == source[section.y + i][section.x..section.x + section.width]
  {
    var r := CropImage(source, section);
    forall i | 0 <= i < section.height
      ensures r[i] == source[section.y + i][section.x..section.x + section.width]
    {
      var row := source[section.y + i];
      assert |row| == width;
      assert forall j :: 0 <= j < section.width ==> r[i][j] == row[section.x + j];
    }
  }

  /** A full-width section crops to exactly the rows it covers. */
  lemma CropFullWidthRows(source: Image, width: int, height: int, top: int, rows: int)
    requires IsRaster(source, width, height)
    requires width > 0 && rows > 0
    requires 0 <= top && top + rows <= height
    ensures CropImage(source, Rectangle(0, top, width, rows)) == source[top..top + rows]
  {
    var section := Rectangle(0, top, width, rows);
    CropInsideRaster(source, width, height, section);
    var r := CropImage(source, section);
    forall i | 0 <= i < rows ensures r[i] == source[top..top + rows][i] {
      assert source[top + i][0..width] == source[top + i];
    }
  }

  /** The size of the static map fetched for branding removal: 256 x (256 + 2 * 25). */
  function BrandedTileSize(): (s: Size)
    ensures s == Size(256, 306)
  {
    Size(DefaultTileSize.width, DefaultTileSize.height + BrandingHeight * 2)
  }

  /**
   * The part of the branded tile that is kept: 256 x 256 from row 25. It lies
   * inside the branded tile and cuts a band of the same height off its bottom.
   */
  function CleanSection(): (r: Rectangle)
    ensures r == Rectangle(0, 25, 256, 256)
    ensures 0 <= r.x && r.x + r.width <= BrandedTileSize().width
    ensures BrandedTileSize().height - (r.y + r.height) == r.y == BrandingHeight
  {
    Rectangle(0, BrandingHeight, DefaultTileSize.width, DefaultTileSize.height)
  }

  /**
   * `GetTileImageWithoutBranding`: no image when the oversized fetch yields
   * none; otherwise always a 256x256 tile, which for a 256x306 fetch is
   * exactly rows [25, 281) of it.
   */
  function GetTileImageWithoutBranding(p: Provider, signing: Option<Signer>, pos: GPoint, zoom: int,
                                       fetch: StaticMapRequest -> TileFetch): (r: Option<Image>)
    ensures var branded := fetch(TileRequest(p, signing, pos, zoom, Size(256, 306)));
      && (r.Some? <==> branded.Fetched?)
      && (r.Some? ==> IsRaster(r.value, 256, 256))
      && (r.Some? && IsRaster(branded.image, 256, 306) ==> r.value == branded.image[25..281])
  {
    var branded := GetSizedTileImage(p, signing, pos, zoom, BrandedTileSize(), fetch);
    if branded.None? then None
    else
      var cropped := CropImage(branded.value, CleanSection());
      assert IsRaster(branded.value, 256, 306) ==> cropped == branded.value[25..281] by {
        if IsRaster(branded.value, 256, 306) {
          BrandingRemovalKeepsMiddleRows(branded.value);
        }
      }
      Some(cropped)
  }

  /** Cropping the clean section out of a 256x306 branded tile keeps exactly its rows [25, 281). */
  lemma BrandingRemovalKeepsMiddleRows(branded: Image)
    requires IsRaster(branded, 256, 306)
    ensures CropImage(branded, CleanSection()) == branded[BrandingHeight..BrandingHeight + 256]
    ensures IsRaster(branded[BrandingHeight..BrandingHeight + 256], 256, 256)
  {
    CropFullWidthRows(branded, 256, 306, BrandingHeight, 256);
  }

  /**
   * The public `GetTileImage(pos, zoom)`: with branding removal on (the only
   * setting a provider ever has) a clean 256x256 tile or nothing, the tile
   * being the middle rows of a 256x306 fetch; with it off, whatever the
   * 256x256 request yields.
   */
  function GetTileImage(p: Provider, signing: Option<Signer>, pos: GPoint, zoom: int,
                        fetch: StaticMapRequest -> TileFetch): (r: Option<Image>)
    ensures p.removeBranding ==>
      (r.Some? <==> fetch(TileRequest(p, signing, pos, zoom, Size(256, 306))).Fetched?)
      && (r.Some? ==> IsRaster(r.value, 256, 256))
    ensures p.removeBranding ==>
      var branded := fetch(TileRequest(p, signing, pos, zoom, Size(256, 306)));
      r.Some? && IsRaster(branded.image, 256, 306) ==> r.value == branded.image[25..281]
    ensures !p.removeBranding ==>
      (r.Some? <==> fetch(TileRequest(p, signing, pos, zoom, Size(256, 256))).Fetched?)
      && (r.Some? ==> r.value == fetch(TileRequest(p, signing, pos, zoom, Size(256, 256))).image)
  {
    if p.removeBranding then GetTileImageWithoutBranding(p, signing, pos, zoom, fetch)
    else GetSizedTileImage(p, signing, pos, zoom, DefaultTileSize, fetch)
  }

  /** A null image or a `WebException` from the transfer yields no tile, never an exception. */
  lemma FailedFetchYieldsNoTile(p: Provider, signing: Option<Signer>, pos: GPoint, zoom: int,
                                fetch: StaticMapRequest -> TileFetch)
    requires p.removeBranding
    requires !fetch(TileRequest(p, signing, pos, zoom, Size(256, 306))).Fetched?
    ensures GetTileImage(p, signing, pos, zoom, fetch).None?
  {
  }
}
